=== FILE: README.md ===
# fileexplorer: a Dafny model of the shell's logic

`fileexplorer.cpp` is a small interactive file-explorer shell. It reads one line at a
time, splits the line into a command and up to two arguments, and runs one of thirteen
commands against the current directory: `ls`, `cd`, `mkdir`, `touch`, `rm`, `rmdir`,
`cp`, `mv`, `search`, `perm`, `chmod`, `help` and `exit`. This project models the
deterministic logic inside that shell and proves properties of it:

- **SizeFormat** (`size_format.dfy`): the unit loop of `formatSize` and its two output
  branches.
- **FileType** (`file_type.dfy`): `getFileType`, the file-format field of a mode
  mapped to one of eight tags.
- **Permissions** (`permissions.dfy`): the `rwxrwxrwx` rendering in `showPermissions`.
- **Paths** (`paths.dfy`): `base + "/" + name` and the `cd ..` parent computed with
  `find_last_of('/')`.
- **Tokenizer** (`tokenizer.dfy`): `stringstream >> cmd >> arg1 >> arg2`, both as a
  function over the words of the line and as a loop that reads them the way the stream
  does.
- **Numerals** (`numerals.dfy`): the decimal text `ostream << long long` prints, and
  `stoi(s, 0, 8)` with its two exceptions.
- **DirListing** (`listing.dfy`): the rows `listDirectory` prints.
- **Search** (`search.dfy`): `searchItem` as a walk over a finite tree of entries.
- **Shell** (`shell.dfy`): the `while (true)` loop of `main` as a step function on a
  session. The session holds the current path and whether the loop still runs.

Each POSIX call the shell makes becomes a field of an `Fs` value: `opendir`/`readdir`
with `stat`, `chdir` followed by `getcwd`, `mkdir`, `remove`, `rmdir`, `rename`, `stat`,
`chmod`, the `ofstream` open, and `copyFile`. Each field is a total function of the path
(and mode or second path) it is given. `openDir` answers with a whole `Listing` tree,
`chdir` with the path `getcwd` then reports (or nothing when it fails), and `stat` with
the mode (or nothing); the other fields answer success or failure. `Run` takes one `Fs`
per input line, so any behaviour of the filesystem between commands can be stated. A directory tree is a finite `Entry` value.
Each entry carries what `stat` reports for it and what `opendir` enumerates on its path.

Mode values are unbounded naturals. The format-field constants are the Linux values of
`<sys/stat.h>` (`S_IFDIR` is 0x4000, and so on). `long long` sizes are the `Int64`
subset type. `stoi`'s result is range-checked against 32-bit `int`. Its conversion to
`mode_t` is taken modulo 2^32 (`Shell.ToModeT`).

Three behaviours of the code are easy to misread; the model follows the code:

- A `chmod` whose mode text has no octal digit makes `stoi` throw `invalid_argument`. A
  mode outside `int` makes it throw `out_of_range`. Nothing in `main` catches either
  exception. So the process ends: `Step` sets the status to `Aborted` and replies
  `Terminated`. It is not reported as an ordinary failure, and `exit` is not the only
  line that ends the loop.
- `cd ..` from a top-level directory such as `/home` asks `chdir` for the empty path,
  not for `/` (`Paths.TopLevelParentIsEmpty`).
- A line of white space only is not skipped: `cmd` is empty and the line reaches
  "unknown command" (`Shell.BlankLineIsUnknown`).

## Model

| member | source | states |
|---|---|---|
| SizeFormat.UnitIndex | fileexplorer.cpp:20-26 | the unit index is at most 4 (TB). A positive size is at least 1024^u. Below index 4 the size is under 1024^(u+1). The index is 0 exactly when the size is under 1024 |
| SizeFormat.SelectUnit | fileexplorer.cpp:21-26 | the divide-by-1024 loop ends with exactly the index `UnitIndex` picks, holding the size divided by 1024^index |
| SizeFormat.UnitIndexMonotone | fileexplorer.cpp:20-26 | a larger size never gets a smaller unit |
| SizeFormat.FormatSize | fileexplorer.cpp:19-34 | the plain-bytes branch is taken exactly when the size is under 1024. Otherwise the unit is the one `UnitIndex` picks (KB, MB, GB or TB), the value times 1024^u for that unit's index u is exactly the size, and the value is at least 1, and below 1024 unless the unit is TB |
| SizeFormat.SmallSizesPrintExactly | fileexplorer.cpp:29-32 | for 0 <= n < 1024 the text is n's decimal digits followed by " B" |
| SizeFormat.SmallSizeTextDeterminesSize | fileexplorer.cpp:31-32 | two sizes below 1024 with the same text are equal |
| SizeFormat.FormatSizeExamples | fileexplorer.cpp:19-34 | 0 gives "0 B"; 1023 gives "1023 B"; 1024 gives 1.0 KB; 1048576 gives 1.0 MB; the largest `long long` gives TB |
| Numerals.IntToDecimal | fileexplorer.cpp:32 | the printed integer starts with '-' exactly when it is negative, and the rest is decimal digits |
| Numerals.DecimalRoundTrip | fileexplorer.cpp:32 | the printed digits of n read back as n |
| Numerals.IntToDecimalInjective | fileexplorer.cpp:32 | distinct integers print as distinct text |
| Numerals.StoiOctal | fileexplorer.cpp:225 | a converted value lies within `int`. `invalid_argument` occurs exactly when no octal digit follows the leading white space and optional sign |
| Numerals.StoiOctalRoundTrip | fileexplorer.cpp:225 | the octal text of any n up to INT_MAX converts back to n |
| Numerals.StoiOctalReads | fileexplorer.cpp:225 | white space, an optional sign, leading zeros, the octal digits of n, then a character that is not an octal digit: this converts to n or -n when that fits in `int`, and throws `out_of_range` otherwise |
| Numerals.StoiOctalLeadingZero | fileexplorer.cpp:225 | "0755" converts to 493 |
| Numerals.StoiOctalNegative | fileexplorer.cpp:225 | "-1" converts to -1 |
| Numerals.StoiOctalPadded | fileexplorer.cpp:225 | " +7x" converts to 7: leading space and sign are read, trailing junk ignored |
| Numerals.StoiOctalTooLarge | fileexplorer.cpp:225 | "20000000000" (2^31) throws `out_of_range` |
| Numerals.StoiOctalNoDigits | fileexplorer.cpp:225 | "abc" and "9" throw `invalid_argument` |
| FileType.GetFileType | fileexplorer.cpp:39-48 | the tag is not OTHR exactly when the format field is one of the seven known values, and then the tag's format value is that field |
| FileType.TypeDependsOnlyOnFormat | fileexplorer.cpp:39-48 | modes with the same format field get the same tag |
| FileType.FormatOfRoundTrip | fileexplorer.cpp:40-46 | a tag's format value plus any low 12 bits classifies as that tag, so a directory mode gives DIR whatever its permission bits |
| FileType.TagNameInjective | fileexplorer.cpp:40-47 | the eight texts are pairwise different |
| FileType.GetFileTypeTotal | fileexplorer.cpp:39-48 | the text is always one of DIR, FILE, LINK, CHAR, BLCK, FIFO, SOCK, OTHR |
| Permissions.PermString | fileexplorer.cpp:120-129 | the text has 9 characters. Position i holds "rwx"[i % 3] when bit 8 - i of the mode is set, and '-' otherwise |
| Permissions.HighBitsIgnored | fileexplorer.cpp:120-129 | only the low nine bits matter: setuid, setgid, sticky and the file type never change the text |
| Permissions.ParsePermStringRoundTrip | fileexplorer.cpp:120-129 | the rendered text is well formed and reads back as the mode modulo 0o1000 |
| Permissions.PermStringRoundTrip | fileexplorer.cpp:120-129 | every well-formed 9-character text is the rendering of the bits it shows |
| Permissions.PermBitsInjective | fileexplorer.cpp:120-129 | two well-formed texts showing the same bits are equal |
| Permissions.PermStringExamples | fileexplorer.cpp:120-129 | 0644 gives rw-r--r--; 0755 gives rwxr-xr-x; 0 gives ---------; a directory with 0777 gives rwxrwxrwx |
| Permissions.ShowPermissions | fileexplorer.cpp:114-130 | it reports "cannot access" for the path exactly when `stat` fails. Otherwise it shows a well-formed text that reads back as the mode's nine permission bits |
| Paths.Join | fileexplorer.cpp:176 | the built path is the base, one '/', then the name |
| Paths.LastIndexOf | fileexplorer.cpp:176 | the result is npos (None) exactly when the character is absent. Otherwise it is an index holding the character with none after it |
| Paths.ParentPath | fileexplorer.cpp:176 | without '/' the path is kept whole. Otherwise the result is a strict prefix ending just before the last '/' |
| Paths.CdTarget | fileexplorer.cpp:176 | any argument but `..` gives the current path, a '/', then exactly the argument, and `cd ..` from there (argument without '/') gives the current path back. `..` gives a prefix of the current path; when the path has a '/', the prefix stops just before a '/' with no '/' after it, that is, before the last one; a path without '/' is kept whole, since `find_last_of` gives `npos` |
| Paths.ParentOfJoin | fileexplorer.cpp:176 | the parent of base + "/" + name is base when the name holds no '/' |
| Paths.ParentDropsLastSegment | fileexplorer.cpp:176 | a path with a '/' is its parent, a '/', and a slash-free last segment |
| Paths.TopLevelParentIsEmpty | fileexplorer.cpp:176 | the parent of "/name" is the empty string |
| Tokenizer.Words | fileexplorer.cpp:169-171 | every extracted word is non-empty and free of white space |
| Tokenizer.Tokenize | fileexplorer.cpp:169-171 | a missing `cmd` leaves both arguments empty, and a missing `arg1` leaves `arg2` empty. `cmd` is empty exactly when the line has no word |
| Tokenizer.ReadTokens | fileexplorer.cpp:169-171 | the skip-white-space, read-word loop (stopping after three words or at the end of the line) yields the first three words of the line |
| Tokenizer.WordEnd | fileexplorer.cpp:171 | one `>>` read stops at the first white space after the word or at the end of the line |
| Tokenizer.WordsOfUnwords | fileexplorer.cpp:169-171 | words joined by single spaces split back into the same words |
| Tokenizer.BlankLineHasNoWords | fileexplorer.cpp:167-171 | a line of white space only has no word, and all three tokens are empty |
| Tokenizer.LeadingSpaceIgnored | fileexplorer.cpp:171 | leading white space does not change the words |
| Tokenizer.ExtraWordsIgnored | fileexplorer.cpp:170-171 | for three or more words joined by single spaces, the tokens are the first three, and later words are dropped |
| Tokenizer.WordsKeepEveryNonSpace | fileexplorer.cpp:169-171 | splitting loses only white space: the words laid end to end are the line without its white space |
| DirListing.RowIdentifiesEntry | fileexplorer.cpp:69-72 | a row identifies its entry's name and file-type tag; a size below 1024 is printed exactly, so equal rows also mean equal sizes |
| DirListing.ListRows | fileexplorer.cpp:66-74 | there are never more rows than entries |
| DirListing.ListDirectory | fileexplorer.cpp:53-77 | it fails exactly when the directory cannot be opened; otherwise it gives at most one row per entry |
| DirListing.RowCount | fileexplorer.cpp:66-74 | there is exactly one row per entry whose `stat` succeeds |
| DirListing.EveryRowHasEntry | fileexplorer.cpp:66-74 | every row is the row of some entry whose `stat` succeeds |
| DirListing.ListRowsAppend | fileexplorer.cpp:66-74 | rows keep enumeration order: listing a concatenation lists the parts in turn |
| DirListing.EntryIsListed | fileexplorer.cpp:66-74 | each resolvable entry's row sits between the rows of the entries before it and after it |
| DirListing.EmptyDirectoryListsNoRows | fileexplorer.cpp:53-77 | an openable empty directory succeeds with no rows |
| Search.SearchItem | fileexplorer.cpp:93-95 | an unopenable base reports nothing. Every report starts with base + "/" and ends with "/" + name |
| Search.SearchEntries | fileexplorer.cpp:98-107 | every path reported below a directory starts with that directory + "/" and ends with "/" + the target |
| Search.Walk | fileexplorer.cpp:98-107 | the walk never visits "." or ".." |
| Search.SearchIsFilteredWalk | fileexplorer.cpp:93-109 | the search reports exactly the paths of the visited entries whose name matches, in pre-order walk order |
| Search.SearchCountsMatches | fileexplorer.cpp:93-109 | the number of reports equals the number of matching entries reached |
| Search.DotNamesNeverFound | fileexplorer.cpp:99 | searching for "." or ".." reports nothing |
| Search.AbsentNameNotFound | fileexplorer.cpp:93-109 | a name no reached entry carries is never reported |
| Search.SearchEntriesAppend | fileexplorer.cpp:98-107 | siblings are searched one after another in enumeration order |
| Search.MatchReportedBeforeDescent | fileexplorer.cpp:101-106 | a matching directory is reported before anything found inside it, and its subtree's reports come before those of its later siblings |
| Search.SearchExample | fileexplorer.cpp:93-109 | root holding a/target.txt and b/other.txt reports only "root/a/target.txt" |
| Shell.ToModeT | fileexplorer.cpp:225 | the value passed to `chmod` is below 2^32, differs from the `stoi` result by a multiple of 2^32 (so a negative mode wraps around), and equals it when that is already in range |
| Shell.Step | fileexplorer.cpp:164-231 | an empty line is skipped with nothing changed. The path changes only on `cd`, to what `chdir`/`getcwd` reported. The loop exits exactly on `exit` and aborts exactly on a `chmod` whose mode `stoi` rejects. An unknown command changes nothing |
| Shell.Run | fileexplorer.cpp:164-232 | there is at most one reply per line, and a stopped session reads no more lines |
| Shell.BlankLineIsUnknown | fileexplorer.cpp:167-171 | a non-empty line of white space only is an unknown command and changes nothing |
| Shell.RunWithoutStopKeepsRunning | fileexplorer.cpp:164-232 | with no `exit` and no rejected `chmod` mode, every line gets a reply and the loop still runs afterwards |
| Shell.ExitEndsTheLoop | fileexplorer.cpp:173 | an `exit` line ends the loop at once; later lines are never read |
| Shell.PathOnlyFromCd | fileexplorer.cpp:175-182 | the final path is the starting one or a path `chdir`/`getcwd` reported for some `cd` line |
| Shell.StepOnChild | fileexplorer.cpp:183-205 | `mkdir`, `touch`, `rm` and `rmdir` act on current path + "/" + first argument, a child of the current path when the argument has no '/'; each reports success exactly when its call succeeds, and the session is kept |
| Shell.StepOnPair | fileexplorer.cpp:206-221 | `cp` and `mv` hand `copyFile` and `rename` the two joined paths, source first, and report success exactly when that call succeeds |
| Shell.StepOnPerm | fileexplorer.cpp:223 | `perm` stats current path + "/" + argument: "cannot access" that path exactly when `stat` fails, otherwise a text reading back as the mode's nine bits |
| Shell.StepOnChmod | fileexplorer.cpp:224-229 | a `chmod` whose mode converts sets that mode, taken to `mode_t`, on current path + "/" + second argument, and reports success exactly when `chmod` succeeds |
| Shell.StepOnList | fileexplorer.cpp:174 | `ls` fails exactly when the current directory cannot be opened, and otherwise prints the rows of its entries |
| Shell.StepOnSearch | fileexplorer.cpp:222 | `search` reports exactly what `searchItem` finds from the current directory for the argument |
| Shell.StepOnCd | fileexplorer.cpp:175-182 | `cd` asks `chdir` for the path `CdTarget` builds; it reports a change exactly when `chdir` succeeds, and then moves to the path `getcwd` gives; it reports "Directory not found" exactly when `chdir` fails, and then keeps the session unchanged |
| Shell.StepOnHelp | fileexplorer.cpp:230 | `help` shows the help menu and keeps the session unchanged |
| Shell.StepKeepsPath | fileexplorer.cpp:183-231 | every command except `cd`, `exit` and `chmod` leaves the session as it was |
| Shell.StepCd | fileexplorer.cpp:175-182 | a `cd` whose `chdir` succeeds moves to the path `getcwd` reports |
| Shell.CdIntoThenBack | fileexplorer.cpp:175-188 | `mkdir x`, `cd x`, `cd ..` returns to the starting path with three replies, when `getcwd` reports the paths the shell built |
| Shell.ChmodThenPerm | fileexplorer.cpp:223-229 | `chmod 644 f` then `perm f` reports rw-r--r-- when the next `stat` sees the mode that was set |

## Left out

- SizeFormat.FormatSize: the scaled value is kept exact. The `fixed`/`setprecision(2)` text
  of line 30 is floating-point formatting and is not modelled. The unit choice and the
  integer branch are modelled exactly.
- SizeFormat.SelectUnit: runs the loop on exact reals. Dividing a `double` by 1024 is
  exact. Above 2^53 the `long long` to `double` conversion can round, but such a size
  already selects TB, so the unit is unaffected.
- Shell.Run: input running out ends the loop. The program never checks the stream. When
  the input ends with a newline, the next `getline` erases the line and extracts nothing,
  so the line stays empty and the loop keeps prompting forever. When the last line has no
  newline, reading it sets end-of-file; every later `getline` then fails before erasing
  the string, so the last line stays in `input` and its command runs again forever (a
  final `ls` lists the directory endlessly).
- Paths reach `opendir`, `chdir`, `mkdir`, `remove`, `rmdir`, `rename`, `stat` and `chmod` through
  `c_str()`, so a word holding a NUL character, which the tokenizer keeps, is cut short
  there; the `Fs` fields receive the whole text. Strings are sequences of characters,
  whereas the program works on bytes, so multi-byte characters are one element here.
- The filesystem calls themselves (`opendir`/`readdir`, `stat`, `chdir`, `getcwd`,
  `mkdir`, `remove`, `rmdir`, `rename`, `chmod`, the `ofstream` open). They are foreign
  POSIX calls, so each is an `Fs` field answering for the path it is given.
- `copyFile`'s stream copy. The model keeps only its success or failure (`Fs.copy`). That
  the destination is opened, and so truncated, even when the source cannot be read is
  not modelled.
- The `getcwd` at start-up: the starting path is a parameter. A failed `getcwd` (with
  its undefined buffer) is not modelled.
- Symbolic-link cycles and live enumeration order. A tree is a finite value, so a walk
  always ends and the order is the one given.
- The console text: prompts, emoji messages, the help menu, the `ls` header and `setw`
  column padding. Replies are constructors, and `help` replies `HelpShown`.
- Mode bits are modelled with the Linux values of the `S_IF*` constants. Other systems'
  numbering is not modelled.
- That `mkdir` of an existing name fails. This needs filesystem state across calls,
  which the per-line `Fs` oracle leaves free.

=== FILE: file_type.dfy ===
/** `getFileType`: the file-format field of a `st_mode` value becomes one of eight tags. */
module FileType {

  // The format-field values of <sys/stat.h> (Linux numbering), as in `S_IFMT`.
  const S_IFMT: nat := 0xF000
  const S_IFSOCK: nat := 0xC000
  const S_IFLNK: nat := 0xA000
  const S_IFREG: nat := 0x8000
  const S_IFBLK: nat := 0x6000
  const S_IFDIR: nat := 0x4000
  const S_IFCHR: nat := 0x2000
  const S_IFIFO: nat := 0x1000

  /** `mode & S_IFMT`: bits 12 to 15 of the mode, kept in place. */
  function FormatField(mode: nat): (f: nat)
    ensures f % 0x1000 == 0 && f <= S_IFMT
  {
    (mode / 0x1000) % 16 * 0x1000
  }

  predicate IsDir(mode: nat) { FormatField(mode) == S_IFDIR }
  predicate IsReg(mode: nat) { FormatField(mode) == S_IFREG }
  predicate IsLnk(mode: nat) { FormatField(mode) == S_IFLNK }
  predicate IsChr(mode: nat) { FormatField(mode) == S_IFCHR }
  predicate IsBlk(mode: nat) { FormatField(mode) == S_IFBLK }
  predicate IsFifo(mode: nat) { FormatField(mode) == S_IFIFO }
  predicate IsSock(mode: nat) { FormatField(mode) == S_IFSOCK }

  datatype TypeTag = Dir | File | Link | Char | Blck | Fifo | Sock | Othr

  /** The three- or four-letter column text `getFileType` returns for each tag. */
  function TagName(t: TypeTag): (s: string)
    ensures 3 <= |s| <= 4
  {
    match t
    case Dir => "DIR"
    case File => "FILE"
    case Link => "LINK"
    case Char => "CHAR"
    case Blck => "BLCK"
    case Fifo => "FIFO"
    case Sock => "SOCK"
    case Othr => "OTHR"
  }

  /** The format-field value a tag stands for; `Othr` stands for none. */
  function FormatOf(t: TypeTag): (f: nat)
    ensures f % 0x1000 == 0 && f <= S_IFMT
  {
    match t
    case Dir => S_IFDIR
    case File => S_IFREG
    case Link => S_IFLNK
    case Char => S_IFCHR
    case Blck => S_IFBLK
    case Fifo => S_IFIFO
    case Sock => S_IFSOCK
    case Othr => 0
  }

  /** The seven tests in source order, first match wins, `Othr` when none matches. */
  function GetFileType(mode: nat): (t: TypeTag)
    ensures t != Othr <==> FormatField(mode) in {S_IFDIR, S_IFREG, S_IFLNK, S_IFCHR, S_IFBLK, S_IFIFO, S_IFSOCK}
    ensures t != Othr ==> FormatField(mode) == FormatOf(t)
  {
    if IsDir(mode) then Dir
    else if IsReg(mode) then File
    else if IsLnk(mode) then Link
    else if IsChr(mode) then Char
    else if IsBlk(mode) then Blck
    else if IsFifo(mode) then Fifo
    else if IsSock(mode) then Sock
    else Othr
  }

  /** Only the format field decides the tag: permission, setuid, setgid and sticky bits
      (and bits above the field) never change it. */
  lemma TypeDependsOnlyOnFormat(m1: nat, m2: nat)
    requires FormatField(m1) == FormatField(m2)
    ensures GetFileType(m1) == GetFileType(m2)
  {
  }

  /** A mode built from a tag's format value and any low 12 bits classifies as that tag;
      in particular a directory mode is "DIR" whatever other bits are set. */
  lemma FormatOfRoundTrip(t: TypeTag, low: nat)
    requires t != Othr && low < 0x1000
    ensures GetFileType(FormatOf(t) + low) == t
  {
    assert FormatField(FormatOf(t) + low) == FormatOf(t);
  }

  /** The tag texts are pairwise different, so the column text determines the tag. */
  lemma TagNameInjective(a: TypeTag, b: TypeTag)
    requires TagName(a) == TagName(b)
    ensures a == b
  {
  }

  /** `getFileType` always returns exactly one of the eight texts. */
  lemma GetFileTypeTotal(mode: nat)
    ensures TagName(GetFileType(mode)) in ["DIR", "FILE", "LINK", "CHAR", "BLCK", "FIFO", "SOCK", "OTHR"]
  {
  }
}

=== FILE: fs_model.dfy ===
/** The slice of the filesystem the shell reads: what `stat` reports about a path and
    what `opendir`/`readdir` enumerate. A directory tree is a finite value here, so a
    walk over it always ends. */
module FsModel {
  import opened Wrappers
  import SizeFormat
  import FileType

  /** The two `struct stat` fields the program reads. */
  datatype Stat = Stat(mode: nat, size: SizeFormat.Int64)

  /** One `readdir` result, with what `stat` says about `dir + "/" + name` (None when
      `stat` fails) and what `opendir` yields on that same path. */
  datatype Entry = Entry(name: string, stat: Option<Stat>, contents: Listing)

  /** The outcome of `opendir` on a path: it fails, or it enumerates these entries in
      this order (which may include "." and ".."). */
  datatype Listing = Unreadable | Listed(entries: seq<Entry>)

  /** `stat(path) == 0 && S_ISDIR(st.st_mode)`. */
  predicate IsDirectory(e: Entry) {
    e.stat.Some? && FileType.IsDir(e.stat.value.mode)
  }

  /** The self and parent pseudo-entries. */
  predicate IsDotName(name: string) {
    name == "." || name == ".."
  }
}

=== FILE: listing.dfy ===
/** `listDirectory`: one row of type, size and name per entry that `stat` can resolve. */
module DirListing {
  import opened Wrappers
  import opened FsModel
  import SizeFormat
  import FileType

  /** The three columns of an `ls` row (column padding is not modelled). */
  datatype Row = Row(typeName: string, size: SizeFormat.SizeText, name: string)

  function RowOf(e: Entry): Row
    requires e.stat.Some?
  {
    var st := e.stat.value;
    Row(FileType.TagName(FileType.GetFileType(st.mode)), SizeFormat.FormatSize(st.size), e.name)
  }

  /** What a printed row tells about its entry: two entries with the same row have the
      same name and the same file-type tag, and a size below 1024 bytes is printed
      exactly, so it is the same size too. */
  lemma RowIdentifiesEntry(a: Entry, b: Entry)
    requires a.stat.Some? && b.stat.Some? && RowOf(a) == RowOf(b)
    ensures a.name == b.name
    ensures FileType.GetFileType(a.stat.value.mode) == FileType.GetFileType(b.stat.value.mode)
    ensures a.stat.value.size < 1024 <==> b.stat.value.size < 1024
    ensures a.stat.value.size < 1024 ==> a.stat.value.size == b.stat.value.size
  {
    var sa, sb := a.stat.value, b.stat.value;
    FileType.TagNameInjective(FileType.GetFileType(sa.mode), FileType.GetFileType(sb.mode));
    if sa.size < 1024 {
      SizeFormat.SmallSizeTextDeterminesSize(sa.size, sb.size);
    }
  }

  /** Rows for the entries in enumeration order; an entry whose `stat` fails is skipped
      silently, and "." and ".." are listed like any other entry. */
  function ListRows(es: seq<Entry>): (rows: seq<Row>)
    ensures |rows| <= |es|
  {
    if es == [] then []
    else
      var rest := ListRows(es[1..]);
      if es[0].stat.Some? then [RowOf(es[0])] + rest else rest
  }

  /** `listDirectory(path)`, with `dir` the outcome of `opendir(path)`: None is the
      "Could not open directory" failure, otherwise the rows under the header. */
  function ListDirectory(dir: Listing): (r: Option<seq<Row>>)
    ensures r.None? <==> dir.Unreadable?
    ensures r.Some? ==> |r.value| <= |dir.entries|
  {
    match dir
    case Unreadable => None
    case Listed(es) => Some(ListRows(es))
  }

  /** Number of entries `stat` resolves. */
  function Resolvable(es: seq<Entry>): nat
  {
    if es == [] then 0 else (if es[0].stat.Some? then 1 else 0) + Resolvable(es[1..])
  }

  /** Exactly one row per resolvable entry. */
  lemma {:induction false} RowCount(es: seq<Entry>)
    ensures |ListRows(es)| == Resolvable(es)
  {
    if es != [] {
      RowCount(es[1..]);
    }
  }

  /** Every row is the row of some resolvable entry. */
  lemma {:induction false} EveryRowHasEntry(es: seq<Entry>, k: nat)
    requires k < |ListRows(es)|
    ensures exists j :: 0 <= j < |es| && es[j].stat.Some? && ListRows(es)[k] == RowOf(es[j])
  {
    var rest := ListRows(es[1..]);
    if es[0].stat.Some? && k == 0 {
      assert ListRows(es)[0] == RowOf(es[0]);
    } else {
      var k' := if es[0].stat.Some? then k - 1 else k;
      assert ListRows(es)[k] == rest[k'];
      EveryRowHasEntry(es[1..], k');
      var j :| 0 <= j < |es[1..]| && es[1..][j].stat.Some? && rest[k'] == RowOf(es[1..][j]);
      assert es[1..][j] == es[j + 1];
    }
  }

  /** Rows keep the enumeration order: listing a concatenation lists the parts in turn. */
  lemma {:induction false} ListRowsAppend(a: seq<Entry>, b: seq<Entry>)
    ensures ListRows(a + b) == ListRows(a) + ListRows(b)
  {
    if a != [] {
      assert (a + b)[0] == a[0];
      assert (a + b)[1..] == a[1..] + b;
      ListRowsAppend(a[1..], b);
    } else {
      assert a + b == b;
    }
  }

  /** Each resolvable entry gets its row, at its place among the rows. */
  lemma EntryIsListed(es: seq<Entry>, i: nat)
    requires i < |es| && es[i].stat.Some?
    ensures ListRows(es) == ListRows(es[..i]) + [RowOf(es[i])] + ListRows(es[i + 1..])
  {
    var pre, e, post := es[..i], es[i], es[i + 1..];
    var tail := [e] + post;
    SplitAround(es, i);
    ListRowsAppend(pre, tail);
    ListRowsCons(e, post);
    RowsAssoc(ListRows(pre), [RowOf(e)], ListRows(post));
  }

  lemma RowsAssoc(a: seq<Row>, r: seq<Row>, b: seq<Row>)
    ensures a + (r + b) == a + r + b
  {
  }

  lemma SplitAround(es: seq<Entry>, i: nat)
    requires i < |es|
    ensures es == es[..i] + ([es[i]] + es[i + 1..])
  {
  }

  lemma ListRowsCons(e: Entry, post: seq<Entry>)
    requires e.stat.Some?
    ensures ListRows([e] + post) == [RowOf(e)] + ListRows(post)
  {
    assert ([e] + post)[1..] == post;
  }

  /** An empty directory lists the header only and succeeds. */
  lemma EmptyDirectoryListsNoRows()
    ensures ListDirectory(Listed([])) == Some([])
  {
  }
}

=== FILE: numerals.dfy ===
/** Decimal rendering of integers (what `ostream << long long` prints) and the
    base-8 conversion `stoi(s, 0, 8)` used by the `chmod` command. */
module Numerals {

  /** The characters `isspace` accepts in the C locale. */
  predicate IsSpace(c: char) {
    c == ' ' || c == '\t' || c == '\n' || c == '\r' || c as int == 11 || c as int == 12
  }

  predicate IsDigit(c: char) {
    '0' <= c <= '9'
  }

  predicate IsOctalDigit(c: char) {
    '0' <= c <= '7'
  }

  predicate AllDigits(s: string) {
    forall i :: 0 <= i < |s| ==> IsDigit(s[i])
  }

  function DigitChar(d: nat): (c: char)
    requires d < 10
    ensures IsDigit(c) && c as int - '0' as int == d
  {
    ('0' as int + d) as char
  }

  function DigitValue(c: char): nat
    requires IsDigit(c)
  {
    c as int - '0' as int
  }

  /** Decimal digits of a natural number, most significant first, no leading zero. */
  function NatToDecimal(n: nat): (s: string)
    ensures |s| >= 1 && AllDigits(s)
    ensures s[0] == '0' ==> n == 0
    decreases n
  {
    if n < 10 then [DigitChar(n)] else NatToDecimal(n / 10) + [DigitChar(n % 10)]
  }

  /** Value of a string of decimal digits. */
  function DecimalValue(s: string): nat
    requires AllDigits(s)
    decreases |s|
  {
    if |s| == 0 then 0 else 10 * DecimalValue(s[..|s| - 1]) + DigitValue(s[|s| - 1])
  }

  /** What `ostream << n` prints for a `long long` n: a minus sign, then the digits. */
  function IntToDecimal(n: int): (s: string)
    ensures |s| >= 1
    ensures n < 0 <==> s[0] == '-'
    ensures n >= 0 ==> AllDigits(s)
    ensures n < 0 ==> AllDigits(s[1..])
  {
    if n < 0 then "-" + NatToDecimal(-n) else NatToDecimal(n)
  }

  /** Reading the digits back gives the number. */
  lemma {:induction false} DecimalRoundTrip(n: nat)
    ensures DecimalValue(NatToDecimal(n)) == n
    decreases n
  {
    if n >= 10 {
      var s := NatToDecimal(n);
      DecimalRoundTrip(n / 10);
      assert s[..|s| - 1] == NatToDecimal(n / 10);
    }
  }

  /** Distinct numbers print as distinct text. */
  lemma IntToDecimalInjective(a: int, b: int)
    requires IntToDecimal(a) == IntToDecimal(b)
    ensures a == b
  {
    if a < 0 {
      assert b < 0;
      assert NatToDecimal(-a) == IntToDecimal(a)[1..] == IntToDecimal(b)[1..] == NatToDecimal(-b);
      NatToDecimalInjective(-a, -b);
    } else {
      NatToDecimalInjective(a, b);
    }
  }

  lemma NatToDecimalInjective(a: nat, b: nat)
    requires NatToDecimal(a) == NatToDecimal(b)
    ensures a == b
  {
    DecimalRoundTrip(a);
    DecimalRoundTrip(b);
  }

  // ---------------------------------------------------------------------
  // stoi(s, 0, 8)

  const IntMin: int := -0x8000_0000
  const IntMax: int := 0x7FFF_FFFF

  /** The outcome of `stoi(s, 0, 8)`: a value, or one of the two exceptions it throws. */
  datatype StoiResult = Converted(value: int) | InvalidArgument | OutOfRange

  /** Number of leading characters of `s` satisfying `isspace`. */
  function LeadingSpaces(s: string): (n: nat)
    ensures n <= |s|
    ensures forall i :: 0 <= i < n ==> IsSpace(s[i])
    ensures n < |s| ==> !IsSpace(s[n])
    decreases |s|
  {
    if |s| > 0 && IsSpace(s[0]) then 1 + LeadingSpaces(s[1..]) else 0
  }

  /** Number of leading octal digits of `s`. */
  function OctalRun(s: string): (n: nat)
    ensures n <= |s|
    ensures forall i :: 0 <= i < n ==> IsOctalDigit(s[i])
    ensures n < |s| ==> !IsOctalDigit(s[n])
    decreases |s|
  {
    if |s| > 0 && IsOctalDigit(s[0]) then 1 + OctalRun(s[1..]) else 0
  }

  function OctalDigitValue(c: char): nat
    requires IsOctalDigit(c)
  {
    c as int - '0' as int
  }

  /** Value of a string of octal digits. */
  function OctalValue(s: string): nat
    requires forall i :: 0 <= i < |s| ==> IsOctalDigit(s[i])
    decreases |s|
  {
    if |s| == 0 then 0 else 8 * OctalValue(s[..|s| - 1]) + OctalDigitValue(s[|s| - 1])
  }

  /** `stoi(s, 0, 8)`: skip white space, then read a signed octal number. */
  function StoiOctal(s: string): (r: StoiResult)
    ensures r.Converted? ==> IntMin <= r.value <= IntMax
    ensures r == InvalidArgument <==>
              var t := s[LeadingSpaces(s)..];
              var u := if |t| > 0 && (t[0] == '+' || t[0] == '-') then t[1..] else t;
              OctalRun(u) == 0
  {
    ParseSigned(s[LeadingSpaces(s)..])
  }

  /** The conversion once white space is skipped: an optional sign and the longest run of
      octal digits; trailing characters are ignored. No digit throws `invalid_argument`; a
      value outside `int` throws `out_of_range`. */
  function ParseSigned(t: string): (r: StoiResult)
  {
    var negative := |t| > 0 && t[0] == '-';
    var u := if |t| > 0 && (t[0] == '+' || t[0] == '-') then t[1..] else t;
    var n := OctalRun(u);
    if n == 0 then InvalidArgument
    else
      var magnitude: int := OctalValue(u[..n]);
      var v := if negative then -magnitude else magnitude;
      if v < IntMin || v > IntMax then OutOfRange else Converted(v)
  }

  function OctalDigitChar(d: nat): (c: char)
    requires d < 8
    ensures IsOctalDigit(c)
  {
    ('0' as int + d) as char
  }

  /** Octal digits of a natural number, most significant first. */
  function NatToOctal(n: nat): (s: string)
    ensures |s| >= 1
    ensures forall i :: 0 <= i < |s| ==> IsOctalDigit(s[i])
    decreases n
  {
    if n < 8 then [OctalDigitChar(n)] else NatToOctal(n / 8) + [OctalDigitChar(n % 8)]
  }

  lemma {:induction false} OctalValueOfNatToOctal(n: nat)
    ensures OctalValue(NatToOctal(n)) == n
    decreases n
  {
    if n >= 8 {
      var s := NatToOctal(n);
      OctalValueOfNatToOctal(n / 8);
      assert s[..|s| - 1] == NatToOctal(n / 8);
    }
  }

  lemma OctalRunAll(s: string)
    requires forall i :: 0 <= i < |s| ==> IsOctalDigit(s[i])
    ensures OctalRun(s) == |s|
  {
  }

  /** Octal text of a value in range converts back to that value: the mode strings a user
      types to `chmod` (e.g. "755") are read as the octal numbers they spell. */
  lemma StoiOctalRoundTrip(n: nat)
    requires n <= IntMax
    ensures StoiOctal(NatToOctal(n)) == Converted(n)
  {
    var s := NatToOctal(n);
    assert !IsSpace(s[0]);
    assert LeadingSpaces(s) == 0;
    assert s[0..] == s;
    OctalRunAll(s);
    assert s[..|s|] == s;
    OctalValueOfNatToOctal(n);
  }

  /** Any text of the shape `stoi` accepts: white space, an optional sign, leading zeros,
      the octal digits of n, then anything that does not continue the digits. It converts
      to the signed value when that fits in `int`, and throws `out_of_range` otherwise. */
  lemma StoiOctalReads(pad: string, sign: string, zeros: string, n: nat, suffix: string)
    requires forall i :: 0 <= i < |pad| ==> IsSpace(pad[i])
    requires sign == "" || sign == "+" || sign == "-"
    requires forall i :: 0 <= i < |zeros| ==> zeros[i] == '0'
    requires suffix == [] || !IsOctalDigit(suffix[0])
    ensures var v := if sign == "-" then -(n as int) else n as int;
            StoiOctal(pad + sign + zeros + NatToOctal(n) + suffix) ==
              if IntMin <= v <= IntMax then Converted(v) else OutOfRange
  {
    var digits := zeros + NatToOctal(n);
    LeadingZeros(zeros, NatToOctal(n));
    OctalValueOfNatToOctal(n);
    StoiOctalDigits(pad, sign, digits, suffix);
    Assoc(pad + sign, zeros, NatToOctal(n));
  }

  /** The same for any non-empty run of octal digits, valued by `OctalValue`. */
  lemma StoiOctalDigits(pad: string, sign: string, digits: string, suffix: string)
    requires forall i :: 0 <= i < |pad| ==> IsSpace(pad[i])
    requires sign == "" || sign == "+" || sign == "-"
    requires |digits| > 0 && forall i :: 0 <= i < |digits| ==> IsOctalDigit(digits[i])
    requires suffix == [] || !IsOctalDigit(suffix[0])
    ensures var v := if sign == "-" then -(OctalValue(digits) as int) else OctalValue(digits) as int;
            StoiOctal(pad + sign + digits + suffix) ==
              if IntMin <= v <= IntMax then Converted(v) else OutOfRange
  {
    var t := sign + (digits + suffix);
    Assoc(pad + sign, digits, suffix);
    Assoc(pad, sign, digits + suffix);
    assert StoiOctal(pad + t) == ParseSigned(t) by {
      PaddingSkipped(pad, sign, digits, suffix);
    }
    SignedDigits(sign, digits, suffix);
  }

  /** White space before the sign or the first digit is skipped. */
  lemma PaddingSkipped(pad: string, sign: string, digits: string, suffix: string)
    requires forall i :: 0 <= i < |pad| ==> IsSpace(pad[i])
    requires sign == "" || sign == "+" || sign == "-"
    requires |digits| > 0 && IsOctalDigit(digits[0])
    ensures var t := sign + (digits + suffix);
            StoiOctal(pad + t) == ParseSigned(t)
  {
    var t := sign + (digits + suffix);
    assert t[0] == (if sign == "" then digits[0] else sign[0]);
    LeadingSpacesOf(pad, t);
    assert (pad + t)[|pad|..] == t;
  }

  /** An optional sign and a run of octal digits that the suffix does not continue. */
  lemma SignedDigits(sign: string, digits: string, suffix: string)
    requires sign == "" || sign == "+" || sign == "-"
    requires |digits| > 0 && forall i :: 0 <= i < |digits| ==> IsOctalDigit(digits[i])
    requires suffix == [] || !IsOctalDigit(suffix[0])
    ensures var v := if sign == "-" then -(OctalValue(digits) as int) else OctalValue(digits) as int;
            ParseSigned(sign + (digits + suffix)) ==
              if IntMin <= v <= IntMax then Converted(v) else OutOfRange
  {
    var u := digits + suffix;
    var t := sign + u;
    StripSign(sign, u);
    OctalRunOf(digits, suffix);
    assert u[..|digits|] == digits;
  }

  lemma Assoc(a: string, b: string, c: string)
    ensures a + b + c == a + (b + c)
  {
  }

  lemma StripSign(sign: string, u: string)
    requires sign == "" || sign == "+" || sign == "-"
    requires |u| > 0 && IsOctalDigit(u[0])
    ensures var t := sign + u;
            (|t| > 0 && t[0] == '-') == (sign == "-")
    ensures var t := sign + u;
            (if |t| > 0 && (t[0] == '+' || t[0] == '-') then t[1..] else t) == u
  {
    if sign == "" {
      assert sign + u == u;
    } else {
      assert (sign + u)[1..] == u;
    }
  }

  lemma {:induction false} LeadingSpacesOf(pad: string, t: string)
    requires forall i :: 0 <= i < |pad| ==> IsSpace(pad[i])
    requires |t| > 0 && !IsSpace(t[0])
    ensures LeadingSpaces(pad + t) == |pad|
    decreases |pad|
  {
    if |pad| > 0 {
      assert (pad + t)[1..] == pad[1..] + t;
      LeadingSpacesOf(pad[1..], t);
    } else {
      assert pad + t == t;
    }
  }

  lemma {:induction false} OctalRunOf(digits: string, suffix: string)
    requires forall i :: 0 <= i < |digits| ==> IsOctalDigit(digits[i])
    requires suffix == [] || !IsOctalDigit(suffix[0])
    ensures OctalRun(digits + suffix) == |digits|
    ensures (digits + suffix)[..|digits|] == digits
    decreases |digits|
  {
    if |digits| > 0 {
      assert (digits + suffix)[1..] == digits[1..] + suffix;
      OctalRunOf(digits[1..], suffix);
    } else {
      assert digits + suffix == suffix;
    }
  }

  /** Leading zeros do not change an octal value. */
  lemma {:induction false} LeadingZeros(zeros: string, d: string)
    requires forall i :: 0 <= i < |zeros| ==> zeros[i] == '0'
    requires forall i :: 0 <= i < |d| ==> IsOctalDigit(d[i])
    ensures forall i :: 0 <= i < |zeros + d| ==> IsOctalDigit((zeros + d)[i])
    ensures OctalValue(zeros + d) == OctalValue(d)
    decreases |d|
  {
    if |d| == 0 {
      assert zeros + d == zeros;
      ZerosAreZero(zeros);
    } else {
      var s := zeros + d;
      assert s[..|s| - 1] == zeros + d[..|d| - 1];
      assert s[|s| - 1] == d[|d| - 1];
      LeadingZeros(zeros, d[..|d| - 1]);
    }
  }

  lemma {:induction false} ZerosAreZero(zeros: string)
    requires forall i :: 0 <= i < |zeros| ==> zeros[i] == '0'
    ensures OctalValue(zeros) == 0
    decreases |zeros|
  {
    if |zeros| > 0 {
      ZerosAreZero(zeros[..|zeros| - 1]);
    }
  }

  /** Worked value: a mode with a leading zero, as in `chmod 0755 f`. */
  lemma StoiOctalLeadingZero()
    ensures StoiOctal("0755") == Converted(0x1ED)
  {
    assert NatToOctal(61) == NatToOctal(7) + ['5'];
    assert NatToOctal(0x1ED) == "755";
    StoiOctalReads("", "", "0", 0x1ED, "");
    assert "" + "" + "0" + "755" + "" == "0755";
  }

  /** Worked value: a negative mode is converted, not rejected. */
  lemma StoiOctalNegative()
    ensures StoiOctal("-1") == Converted(-1)
  {
    assert NatToOctal(1) == "1";
    StoiOctalReads("", "-", "", 1, "");
    assert "" + "-" + "" + "1" + "" == "-1";
  }

  /** Worked value: white space and a sign before the digits, junk after them. */
  lemma StoiOctalPadded()
    ensures StoiOctal(" +7x") == Converted(7)
  {
    assert NatToOctal(7) == "7";
    StoiOctalReads(" ", "+", "", 7, "x");
    assert " " + "+" + "" + "7" + "x" == " +7x";
  }

  /** Worked value: 2^31, the first value past `int`, throws `out_of_range`. */
  lemma StoiOctalTooLarge()
    ensures StoiOctal("20000000000") == OutOfRange
  {
    OctalTwoToThe31();
    StoiOctalReads("", "", "", 0x8000_0000, "");
    assert "" + "" + "" + "20000000000" + "" == "20000000000";
  }

  /** Worked values: texts that do not start with an octal digit throw `invalid_argument`. */
  lemma StoiOctalNoDigits()
    ensures StoiOctal("abc") == InvalidArgument
    ensures StoiOctal("9") == InvalidArgument
  {
    assert LeadingSpaces("abc") == 0 && OctalRun("abc") == 0;
    assert LeadingSpaces("9") == 0 && OctalRun("9") == 0;
  }

  /** Multiplying by eight appends an octal zero. */
  lemma TimesEight(n: nat)
    requires n >= 1
    ensures NatToOctal(8 * n) == NatToOctal(n) + ['0']
  {
    assert (8 * n) / 8 == n && (8 * n) % 8 == 0;
  }

  lemma OctalTwoToThe16()
    ensures NatToOctal(0x1_0000) == "200000"
  {
    assert NatToOctal(2) == "2";
    TimesEight(2);
    TimesEight(16);
    TimesEight(128);
    TimesEight(1024);
    TimesEight(8192);
  }

  lemma OctalTwoToThe31()
    ensures NatToOctal(0x8000_0000) == "20000000000"
  {
    OctalTwoToThe16();
    TimesEight(0x1_0000);
    TimesEight(0x8_0000);
    TimesEight(0x40_0000);
    TimesEight(0x200_0000);
    TimesEight(0x1000_0000);
  }
}

=== FILE: paths.dfy ===
/** Path text as the shell builds it: `/`-concatenation and the `cd ..` parent. */
module Paths {
  import opened Wrappers

  /** `base + "/" + name`, the path every command except `cd ..` builds. */
  function Join(base: string, name: string): (p: string)
    ensures |p| == |base| + 1 + |name|
    ensures p[..|base|] == base && p[|base|] == '/' && p[|base| + 1..] == name
  {
    base + "/" + name
  }

  /** `find_last_of(c)`: the last index holding c, or None for npos. */
  function LastIndexOf(s: string, c: char): (r: Option<nat>)
    ensures r.None? <==> c !in s
    ensures r.Some? ==> r.value < |s| && s[r.value] == c
    ensures r.Some? ==> forall j :: r.value < j < |s| ==> s[j] != c
    decreases |s|
  {
    if |s| == 0 then None
    else if s[|s| - 1] == c then Some(|s| - 1)
    else LastIndexOf(s[..|s| - 1], c)
  }

  /** `substr(0, find_last_of('/'))`: the text before the last slash; with no slash,
      `substr(0, npos)` keeps the whole string. */
  function ParentPath(p: string): (q: string)
    ensures '/' !in p ==> q == p
    ensures '/' in p ==> |q| < |p| && q == p[..|q|] && p[|q|] == '/' && '/' !in p[|q| + 1..]
  {
    match LastIndexOf(p, '/')
    case None => p
    case Some(k) => p[..k]
  }

  /** The path `cd` hands to `chdir`. Any argument but ".." is the current path, a '/' and
      the argument, and `cd ..` from such a child names the current path again; `cd ..`
      itself cuts the path just before its last '/', and keeps a path without one whole. */
  function CdTarget(currentPath: string, arg: string): (p: string)
    ensures arg != ".." ==> |p| > |currentPath| && p[..|currentPath|] == currentPath
    ensures arg != ".." ==> p[|currentPath|] == '/' && p[|currentPath| + 1..] == arg
    ensures arg != ".." && '/' !in arg ==> ParentPath(p) == currentPath
    ensures arg == ".." ==> |p| <= |currentPath| && p == currentPath[..|p|]
    ensures arg == ".." && '/' in currentPath ==> |p| < |currentPath| && currentPath[|p|] == '/'
    ensures arg == ".." && '/' in currentPath ==> '/' !in currentPath[|p| + 1..]
    ensures arg == ".." && '/' !in currentPath ==> p == currentPath
  {
    if arg == ".." then ParentPath(currentPath)
    else
      var p := Join(currentPath, arg);
      assert p[|currentPath|] == '/';
      p
  }

  /** Going into a child and back up is the identity on the path text, provided the
      child's name holds no slash. */
  lemma ParentOfJoin(base: string, name: string)
    requires '/' !in name
    ensures ParentPath(Join(base, name)) == base
  {
    var p := Join(base, name);
    assert p[|base|] == '/';
    assert '/' in p;
  }

  /** The parent drops exactly the final segment: the old path is the parent, a slash
      and a slash-free last name. */
  lemma ParentDropsLastSegment(p: string)
    requires '/' in p
    ensures exists name :: '/' !in name && p == Join(ParentPath(p), name)
  {
    var q := ParentPath(p);
    var name := p[|q| + 1..];
    assert p == q + "/" + name;
  }

  /** From a top-level directory such as "/home", `cd ..` asks `chdir` for the empty
      path rather than "/"; the same holds at "/" itself. */
  lemma TopLevelParentIsEmpty(name: string)
    requires '/' !in name
    ensures ParentPath("/" + name) == ""
  {
    ParentOfJoin("", name);
  }
}

=== FILE: permissions.dfy ===
/** The `rwxrwxrwx` text `showPermissions` prints for the low nine bits of a mode. */
module Permissions {
  import opened Wrappers

  // The permission masks of <sys/stat.h>.
  const S_IRUSR: nat := 0x100
  const S_IWUSR: nat := 0x80
  const S_IXUSR: nat := 0x40
  const S_IRGRP: nat := 0x20
  const S_IWGRP: nat := 0x10
  const S_IXGRP: nat := 0x8
  const S_IROTH: nat := 0x4
  const S_IWOTH: nat := 0x2
  const S_IXOTH: nat := 0x1

  /** 2^k for the nine permission bits. */
  function Mask(k: nat): (m: nat)
    requires k < 9
    ensures m >= 1
  {
    [1, 2, 4, 8, 16, 32, 64, 128, 256][k]
  }

  /** Bit k of the mode is set. */
  predicate Bit(mode: nat, k: nat)
    requires k < 9
  {
    (mode / Mask(k)) % 2 == 1
  }

  /** `(p & mask) ? c : '-'` for a single-bit mask. */
  function Flag(p: nat, mask: nat, c: char): char
    requires mask > 0
  {
    if (p / mask) % 2 == 1 then c else '-'
  }

  /** The nine characters in the order the program prints them: owner, group, other,
      each as read, write, execute. */
  function PermString(p: nat): (s: string)
    ensures |s| == 9
    ensures forall i :: 0 <= i < 9 ==> s[i] == (if Bit(p, 8 - i) then "rwx"[i % 3] else '-')
  {
    [ Flag(p, S_IRUSR, 'r'), Flag(p, S_IWUSR, 'w'), Flag(p, S_IXUSR, 'x'),
      Flag(p, S_IRGRP, 'r'), Flag(p, S_IWGRP, 'w'), Flag(p, S_IXGRP, 'x'),
      Flag(p, S_IROTH, 'r'), Flag(p, S_IWOTH, 'w'), Flag(p, S_IXOTH, 'x') ]
  }

  /** A string of the shape `PermString` produces. */
  predicate WellFormed(s: string) {
    |s| == 9 && forall i :: 0 <= i < 9 ==> s[i] == "rwx"[i % 3] || s[i] == '-'
  }

  /** Reads a permission string back into the nine mode bits it shows. */
  function ParsePermString(s: string): (m: nat)
    requires WellFormed(s)
    ensures m < 512
  {
    PermBits(s, 0)
  }

  /** Bits for positions i..8 of the string; position i stands for bit 8 - i. */
  function PermBits(s: string, i: nat): (m: nat)
    requires WellFormed(s) && i <= 9
    ensures i == 9 ==> m == 0
    ensures i < 9 ==> m < 2 * Mask(8 - i)
    decreases 9 - i
  {
    if i == 9 then 0
    else (if s[i] == '-' then 0 else Mask(8 - i)) + PermBits(s, i + 1)
  }

  lemma MaskDoubles(k: nat)
    requires k < 8
    ensures Mask(k + 1) == 2 * Mask(k)
  {
  }

  /** Bit k of p and of p % 512 agree. */
  lemma LowBitAgrees(p: nat, k: nat)
    requires k < 9
    ensures Bit(p, k) == Bit(p % 512, k)
  {
    var d := Mask(k);
    assert 2 * (256 / d) * d == 512;
    LowBitAt(p, d, 256 / d);
  }

  /** The residue modulo 2^(k+1) is bit k's weight plus the residue modulo 2^k. */
  lemma BitSplit(p: nat, k: nat)
    requires k < 9
    ensures p % (2 * Mask(k)) == (if Bit(p, k) then Mask(k) else 0) + p % Mask(k)
  {
    SplitAt(p, Mask(k));
  }

  /** Euclidean division is unique: a quotient and a remainder in range are the ones. */
  lemma DivModUnique(n: int, d: int, q: int, v: int)
    requires d > 0 && 0 <= v < d && n == d * q + v
    ensures n / d == q && n % d == v
  {
    var q', v' := n / d, n % d;
    assert n == d * q' + v' && 0 <= v' < d;
    assert d * (q - q') == v' - v by {
      assert d * (q - q') == d * q - d * q';
    }
    NoSmallMultiple(d, q - q');
  }

  /** A multiple of d strictly between -d and d is zero. */
  lemma NoSmallMultiple(d: int, k: int)
    requires d > 0 && -d < d * k < d
    ensures k == 0
  {
    if k > 0 {
      AtLeastOnce(d, k);
    } else if k < 0 {
      assert d * (-k) == -(d * k);
      AtLeastOnce(d, -k);
    }
  }

  /** d times a positive k is at least d. */
  lemma {:induction false} AtLeastOnce(d: int, k: int)
    requires d > 0 && k > 0
    ensures d * k >= d
    decreases k
  {
    if k > 1 {
      AtLeastOnce(d, k - 1);
      assert d * k == d * (k - 1) + d;
    }
  }

  /** The residue modulo 2d is bit d's weight plus the residue modulo d. */
  lemma SplitAt(p: nat, d: nat)
    requires d >= 1
    ensures p % (2 * d) == p / d % 2 * d + p % d
  {
    var q, r := p / (2 * d), p % (2 * d);
    var b, v := r / d, r % d;
    assert r == d * b + v && 0 <= b < 2;
    assert p == d * (2 * q + b) + v;
    DivModUnique(p, d, 2 * q + b, v);
    DivModUnique(2 * q + b, 2, q, b);
  }

  /** Reducing modulo 2cd keeps the bit of weight d. */
  lemma LowBitAt(p: nat, d: nat, c: nat)
    requires d >= 1 && c >= 1
    ensures (p % (2 * c * d)) / d % 2 == p / d % 2
  {
    var q, r := p / (2 * c * d), p % (2 * c * d);
    var u, v := r / d, r % d;
    assert r == d * u + v;
    assert p == d * (2 * (c * q) + u) + v;
    DivModUnique(p, d, 2 * (c * q) + u, v);
    DivModUnique(2 * (c * q) + u, 2, c * q + u / 2, u % 2);
  }

  /** Only the nine permission bits matter: setuid, setgid, sticky and the file type are
      never shown. */
  lemma HighBitsIgnored(p: nat)
    ensures PermString(p) == PermString(p % 512)
  {
    forall k | 0 <= k < 9
      ensures Bit(p, k) == Bit(p % 512, k)
    {
      LowBitAgrees(p, k);
    }
  }

  /** The tail of the rendered string from position i reads back as p modulo 2^(9-i). */
  lemma {:induction false} PermBitsOfPermString(p: nat, i: nat)
    requires i < 9
    ensures WellFormed(PermString(p))
    ensures PermBits(PermString(p), i) == p % (2 * Mask(8 - i))
    decreases 9 - i
  {
    var s := PermString(p);
    assert WellFormed(s);
    var m := Mask(8 - i);
    var head := if s[i] == '-' then 0 else m;
    assert head == (if Bit(p, 8 - i) then m else 0) by {
      HeadWeight(p, i);
    }
    assert p % (2 * m) == head + p % m by {
      BitSplit(p, 8 - i);
    }
    assert PermBits(s, i + 1) == p % m by {
      if i == 8 {
        assert PermBits(s, 9) == 0;
      } else {
        PermBitsOfPermString(p, i + 1);
        MaskDoubles(7 - i);
      }
    }
  }

  /** The character at position i stands for bit 8 - i. */
  lemma HeadWeight(p: nat, i: nat)
    requires i < 9
    ensures PermString(p)[i] != '-' <==> Bit(p, 8 - i)
  {
    assert "rwx"[i % 3] != '-';
  }

  /** Rendering then reading back gives the nine permission bits. */
  lemma ParsePermStringRoundTrip(p: nat)
    ensures WellFormed(PermString(p))
    ensures ParsePermString(PermString(p)) == p % 512
  {
    PermBitsOfPermString(p, 0);
  }

  lemma RenderedBitsReadBack(m: nat)
    requires m < 512
    ensures WellFormed(PermString(m)) && PermBits(PermString(m), 0) == m
  {
    var s := PermString(m);
    ParsePermStringRoundTrip(m);
    assert ParsePermString(s) == m % 512;
    SmallModulus(m);
  }

  lemma SmallModulus(m: nat) requires m < 512 ensures m % 512 == m {}

  /** Two well-formed strings that read back to the same bits are the same string. */
  lemma {:induction false} PermBitsInjective(s: string, t: string, i: nat)
    requires WellFormed(s) && WellFormed(t) && i <= 9
    requires PermBits(s, i) == PermBits(t, i)
    ensures s[i..] == t[i..]
    decreases 9 - i
  {
    if i < 9 {
      HeadBitAgrees(s, t, i);
      PermBitsInjective(s, t, i + 1);
      SliceCons(s, i);
      SliceCons(t, i);
    }
  }

  lemma SliceCons(s: string, i: nat)
    requires i < |s|
    ensures s[i..] == [s[i]] + s[i + 1..]
  {
  }

  /** Position i carries the only bit of weight 2^(8-i), so equal readings agree there. */
  lemma HeadBitAgrees(s: string, t: string, i: nat)
    requires WellFormed(s) && WellFormed(t) && i < 9
    requires PermBits(s, i) == PermBits(t, i)
    ensures s[i] == t[i] && PermBits(s, i + 1) == PermBits(t, i + 1)
  {
    var m := Mask(8 - i);
    var a := if s[i] == '-' then 0 else m;
    var b := if t[i] == '-' then 0 else m;
    var rs, rt := PermBits(s, i + 1), PermBits(t, i + 1);
    if i < 8 {
      MaskDoubles(7 - i);
    }
    assert rs < m && rt < m;
    assert a + rs == b + rt;
    assert a == b;
  }

  /** Reading a well-formed string and rendering the bits gives the string back. */
  lemma PermStringRoundTrip(s: string)
    requires WellFormed(s)
    ensures PermString(ParsePermString(s)) == s
  {
    var m := ParsePermString(s);
    RenderedBitsReadBack(m);
    PermBitsInjective(PermString(m), s, 0);
    assert PermString(m)[0..] == PermString(m);
    assert s[0..] == s;
  }

  /** Worked values: the mode set by `chmod 644` shows as rw-r--r--, the mode `mkdir`
      requests shows as rwxr-xr-x, and a directory with mode 0777 shows no trace of its
      type bits. */
  lemma PermStringExamples()
    ensures PermString(0x1A4) == "rw-r--r--"
    ensures PermString(0x1ED) == "rwxr-xr-x"
    ensures PermString(0) == "---------"
    ensures PermString(0x41FF) == "rwxrwxrwx"
  {
    Example644();
    Example755();
    Example0();
    Example41FF();
  }

  lemma Example644() ensures PermString(0x1A4) == "rw-r--r--" {}
  lemma Example755() ensures PermString(0x1ED) == "rwxr-xr-x" {}
  lemma Example0() ensures PermString(0) == "---------" {}
  lemma Example41FF() ensures PermString(0x41FF) == "rwxrwxrwx" {}

  /** What `perm` prints: the permission text, or "Cannot access" when `stat` fails. */
  datatype PermReport = CannotAccess(path: string) | Shown(text: string)

  function ShowPermissions(path: string, mode: Option<nat>): (r: PermReport)
    ensures r.CannotAccess? <==> mode.None?
    ensures r.CannotAccess? ==> r.path == path
    ensures r.Shown? ==> WellFormed(r.text) && ParsePermString(r.text) == mode.value % 512
  {
    match mode
    case None => CannotAccess(path)
    case Some(m) =>
      ParsePermStringRoundTrip(m);
      Shown(PermString(m))
  }
}

=== FILE: search.dfy ===
/** `searchItem`: a depth-first walk below a directory reporting the path of every entry
    whose name equals the target. */
module Search {
  import opened Wrappers
  import opened FsModel
  import Paths

  predicate EndsWith(s: string, suffix: string) {
    |suffix| <= |s| && s[|s| - |suffix|..] == suffix
  }

  predicate StartsWith(s: string, prefix: string) {
    |prefix| <= |s| && s[..|prefix|] == prefix
  }

  /** `searchItem(basePath, name)`, where `dir` is what `opendir(basePath)` yields: an
      unopenable path reports nothing. */
  function SearchItem(basePath: string, dir: Listing, name: string): (found: seq<string>)
    ensures dir.Unreadable? ==> found == []
    ensures forall k :: 0 <= k < |found| ==>
              StartsWith(found[k], basePath + "/") && EndsWith(found[k], "/" + name)
  {
    match dir
    case Unreadable => []
    case Listed(es) => SearchEntries(basePath, es, name)
  }

  /** The loop over one directory's entries, in enumeration order. For each entry other
      than "." and "..": its path is reported if the name matches, then the walk descends
      into it when `stat` says it is a directory. */
  function SearchEntries(basePath: string, es: seq<Entry>, name: string): (found: seq<string>)
    ensures forall k :: 0 <= k < |found| ==>
              StartsWith(found[k], basePath + "/") && EndsWith(found[k], "/" + name)
    decreases es
  {
    if es == [] then []
    else
      var e := es[0];
      var rest := SearchEntries(basePath, es[1..], name);
      if IsDotName(e.name) then rest
      else
        var path := Paths.Join(basePath, e.name);
        var here := if name == e.name then [path] else [];
        var below := if IsDirectory(e) && e.contents.Listed?
                     then SearchEntries(path, e.contents.entries, name) else [];
        PrefixOfChildPaths(basePath, e.name, below);
        here + below + rest
  }

  lemma PrefixOfChildPaths(basePath: string, child: string, found: seq<string>)
    requires forall k :: 0 <= k < |found| ==> StartsWith(found[k], Paths.Join(basePath, child) + "/")
    ensures forall k :: 0 <= k < |found| ==> StartsWith(found[k], basePath + "/")
  {
    forall k | 0 <= k < |found|
      ensures StartsWith(found[k], basePath + "/")
    {
      var p := Paths.Join(basePath, child) + "/";
      assert found[k][..|p|] == p;
      assert p[..|basePath| + 1] == basePath + "/";
      assert found[k][..|basePath| + 1] == p[..|basePath| + 1];
    }
  }

  // ---------------------------------------------------------------------
  // The walk on its own, independent of the target name.

  /** An entry the walk reaches: its full path and its name. */
  datatype Visit = Visit(path: string, name: string)

  /** Every entry the walk reaches, in the order it reaches them (pre-order). */
  function Walk(basePath: string, es: seq<Entry>): (vs: seq<Visit>)
    ensures forall k :: 0 <= k < |vs| ==> !IsDotName(vs[k].name)
    decreases es
  {
    if es == [] then []
    else
      var e := es[0];
      var rest := Walk(basePath, es[1..]);
      if IsDotName(e.name) then rest
      else
        var path := Paths.Join(basePath, e.name);
        var below := if IsDirectory(e) && e.contents.Listed?
                     then Walk(path, e.contents.entries) else [];
        [Visit(path, e.name)] + below + rest
  }

  /** The paths of the visits carrying the given name, in order. */
  function PathsNamed(vs: seq<Visit>, name: string): (ps: seq<string>)
    ensures |ps| <= |vs|
  {
    if vs == [] then []
    else (if vs[0].name == name then [vs[0].path] else []) + PathsNamed(vs[1..], name)
  }

  lemma {:induction false} PathsNamedAppend(a: seq<Visit>, b: seq<Visit>, name: string)
    ensures PathsNamed(a + b, name) == PathsNamed(a, name) + PathsNamed(b, name)
  {
    if a != [] {
      assert (a + b)[1..] == a[1..] + b;
      PathsNamedAppend(a[1..], b, name);
    } else {
      assert a + b == b;
    }
  }

  /** The search is the walk filtered by name: it reports each reached entry whose name
      matches, once, in walk order, and nothing else. */
  lemma {:induction false} SearchIsFilteredWalk(basePath: string, es: seq<Entry>, name: string)
    ensures SearchEntries(basePath, es, name) == PathsNamed(Walk(basePath, es), name)
    decreases es
  {
    if es != [] {
      var e := es[0];
      SearchIsFilteredWalk(basePath, es[1..], name);
      if !IsDotName(e.name) {
        var path := Paths.Join(basePath, e.name);
        var below := if IsDirectory(e) && e.contents.Listed?
                     then Walk(path, e.contents.entries) else [];
        if IsDirectory(e) && e.contents.Listed? {
          SearchIsFilteredWalk(path, e.contents.entries, name);
        }
        PathsNamedAppend([Visit(path, e.name)] + below, Walk(basePath, es[1..]), name);
        PathsNamedAppend([Visit(path, e.name)], below, name);
      }
    }
  }

  /** Number of reached entries carrying the name. */
  function CountNamed(vs: seq<Visit>, name: string): nat
  {
    if vs == [] then 0 else (if vs[0].name == name then 1 else 0) + CountNamed(vs[1..], name)
  }

  lemma {:induction false} PathsNamedCount(vs: seq<Visit>, name: string)
    ensures |PathsNamed(vs, name)| == CountNamed(vs, name)
  {
    if vs != [] {
      PathsNamedCount(vs[1..], name);
    }
  }

  /** One report per matching entry in the subtree. */
  lemma SearchCountsMatches(basePath: string, es: seq<Entry>, name: string)
    ensures |SearchEntries(basePath, es, name)| == CountNamed(Walk(basePath, es), name)
  {
    SearchIsFilteredWalk(basePath, es, name);
    PathsNamedCount(Walk(basePath, es), name);
  }

  lemma {:induction false} PathsNamedNone(vs: seq<Visit>, name: string)
    requires forall k :: 0 <= k < |vs| ==> vs[k].name != name
    ensures PathsNamed(vs, name) == []
  {
    if vs != [] {
      PathsNamedNone(vs[1..], name);
    }
  }

  /** "." and ".." are skipped at every level, so searching for them finds nothing. */
  lemma DotNamesNeverFound(basePath: string, es: seq<Entry>, name: string)
    requires IsDotName(name)
    ensures SearchEntries(basePath, es, name) == []
  {
    SearchIsFilteredWalk(basePath, es, name);
    PathsNamedNone(Walk(basePath, es), name);
  }

  /** A name that no reached entry carries is reported nowhere; an empty directory
      reports nothing. */
  lemma AbsentNameNotFound(basePath: string, es: seq<Entry>, name: string)
    requires forall k :: 0 <= k < |Walk(basePath, es)| ==> Walk(basePath, es)[k].name != name
    ensures SearchEntries(basePath, es, name) == []
  {
    SearchIsFilteredWalk(basePath, es, name);
    PathsNamedNone(Walk(basePath, es), name);
  }

  /** Sibling runs are searched one after the other. */
  lemma {:induction false} SearchEntriesAppend(basePath: string, a: seq<Entry>, b: seq<Entry>, name: string)
    ensures SearchEntries(basePath, a + b, name) ==
            SearchEntries(basePath, a, name) + SearchEntries(basePath, b, name)
    decreases a
  {
    if a != [] {
      SearchEntriesAppend(basePath, a[1..], b, name);
      AppendStep(basePath, a, b, name);
    } else {
      assert a + b == b;
    }
  }

  /** The inductive step of `SearchEntriesAppend`: peel off the first entry of `a`. */
  lemma AppendStep(basePath: string, a: seq<Entry>, b: seq<Entry>, name: string)
    requires a != []
    requires SearchEntries(basePath, a[1..] + b, name) ==
             SearchEntries(basePath, a[1..], name) + SearchEntries(basePath, b, name)
    ensures SearchEntries(basePath, a + b, name) ==
            SearchEntries(basePath, a, name) + SearchEntries(basePath, b, name)
  {
    var head := SearchEntries(basePath, [a[0]], name);
    assert SearchEntries(basePath, a + b, name) == head + SearchEntries(basePath, a[1..] + b, name) by {
      assert (a + b)[0] == a[0] && (a + b)[1..] == a[1..] + b;
      FirstEntryApart(basePath, a + b, name);
    }
    assert SearchEntries(basePath, a, name) == head + SearchEntries(basePath, a[1..], name) by {
      FirstEntryApart(basePath, a, name);
    }
    ConcatAssoc3(head, SearchEntries(basePath, a[1..], name), SearchEntries(basePath, b, name));
  }

  /** The first entry's reports come first, then those of the rest. */
  lemma FirstEntryApart(basePath: string, es: seq<Entry>, name: string)
    requires es != []
    ensures SearchEntries(basePath, es, name) ==
            SearchEntries(basePath, [es[0]], name) + SearchEntries(basePath, es[1..], name)
  {
    assert [es[0]][1..] == [];
  }

  lemma ConcatAssoc3(a: seq<string>, b: seq<string>, c: seq<string>)
    ensures a + (b + c) == a + b + c
  {
  }

  /** Pre-order: a matching entry is reported before anything found below it, and the
      results of its subtree come before those of its later siblings. */
  lemma MatchReportedBeforeDescent(basePath: string, es: seq<Entry>, i: nat, name: string)
    requires i < |es| && es[i].name == name && !IsDotName(name)
    requires IsDirectory(es[i]) && es[i].contents.Listed?
    ensures var path := Paths.Join(basePath, name);
            SearchEntries(basePath, es, name) ==
              SearchEntries(basePath, es[..i], name) + [path] +
              SearchItem(path, es[i].contents, name) + SearchEntries(basePath, es[i + 1..], name)
  {
    var path := Paths.Join(basePath, name);
    var a := SearchEntries(basePath, es[..i], name);
    var b := SearchItem(path, es[i].contents, name);
    var c := SearchEntries(basePath, es[i + 1..], name);
    var tail := SearchEntries(basePath, es[i..], name);
    assert SearchEntries(basePath, es, name) == a + tail by {
      SplitAt(es, i);
      SearchEntriesAppend(basePath, es[..i], es[i..], name);
    }
    assert tail == [path] + b + c by {
      SplitAt(es, i);
      MatchedDirectoryFirst(basePath, es[i..], name);
    }
    ConcatAssoc(a, [path], b, c);
  }

  lemma ConcatAssoc(a: seq<string>, b: seq<string>, c: seq<string>, d: seq<string>)
    ensures a + (b + c + d) == a + b + c + d
  {
  }

  /** Where the run of entries is split around entry i. */
  lemma SplitAt(es: seq<Entry>, i: nat)
    requires i < |es|
    ensures es == es[..i] + es[i..]
    ensures es[i..][0] == es[i] && es[i..][1..] == es[i + 1..]
  {
  }

  /** A first entry that matches and is a readable directory: its path, then its subtree,
      then the later siblings. */
  lemma MatchedDirectoryFirst(basePath: string, es: seq<Entry>, name: string)
    requires |es| > 0 && es[0].name == name && !IsDotName(name)
    requires IsDirectory(es[0]) && es[0].contents.Listed?
    ensures var path := Paths.Join(basePath, name);
            SearchEntries(basePath, es, name) ==
              [path] + SearchItem(path, es[0].contents, name) + SearchEntries(basePath, es[1..], name)
  {
  }

  /** A single entry that is not a directory contributes at most its own path. */
  lemma SearchLeaf(basePath: string, e: Entry, name: string)
    requires !IsDirectory(e) && !IsDotName(e.name)
    ensures SearchEntries(basePath, [e], name) == if e.name == name then [Paths.Join(basePath, e.name)] else []
  {
    assert [e][1..] == [];
  }

  /** A single directory entry whose name does not match contributes what is found below it. */
  lemma SearchSubdir(basePath: string, e: Entry, name: string)
    requires IsDirectory(e) && e.contents.Listed? && !IsDotName(e.name) && e.name != name
    ensures SearchEntries(basePath, [e], name) == SearchEntries(Paths.Join(basePath, e.name), e.contents.entries, name)
  {
    var below := SearchEntries(Paths.Join(basePath, e.name), e.contents.entries, name);
    assert SearchEntries(basePath, [e][1..], name) == [] by {
      assert [e][1..] == [];
    }
    assert [] + below + [] == below;
  }

  /** Worked example: root holds a/target.txt and b/other.txt; one match is reported. */
  lemma SearchExample()
    ensures var file := Some(Stat(FileType.S_IFREG + 0x1A4, 10));
            var dir := Some(Stat(FileType.S_IFDIR + 0x1ED, 4096));
            var tree := Listed([
              Entry(".", dir, Unreadable),
              Entry("a", dir, Listed([Entry("target.txt", file, Unreadable)])),
              Entry("b", dir, Listed([Entry("other.txt", file, Unreadable)]))]);
            SearchItem("root", tree, "target.txt") == ["root/a/target.txt"]
  {
    var dot := Entry(".", ExampleDir, Unreadable);
    ExampleBranchA();
    ExampleBranchB();
    SearchEntriesAppend("root", [ExampleA], [ExampleB], "target.txt");
    assert [dot, ExampleA, ExampleB][1..] == [ExampleA] + [ExampleB];
    assert IsDotName(dot.name);
    assert SearchEntries("root", [dot, ExampleA, ExampleB], "target.txt") ==
           SearchEntries("root", [ExampleA] + [ExampleB], "target.txt");
  }

  const ExampleFile := Some(Stat(FileType.S_IFREG + 0x1A4, 10))
  const ExampleDir := Some(Stat(FileType.S_IFDIR + 0x1ED, 4096))
  const ExampleA := Entry("a", ExampleDir, Listed([Entry("target.txt", ExampleFile, Unreadable)]))
  const ExampleB := Entry("b", ExampleDir, Listed([Entry("other.txt", ExampleFile, Unreadable)]))

  lemma ExampleKinds()
    ensures FileType.IsDir(FileType.S_IFDIR + 0x1ED) && !FileType.IsDir(FileType.S_IFREG + 0x1A4)
  {
  }

  lemma ExampleBranchA()
    ensures SearchEntries("root", [ExampleA], "target.txt") == ["root/a/target.txt"]
  {
    var t := Entry("target.txt", ExampleFile, Unreadable);
    ExampleKinds();
    assert Paths.Join("root", "a") == "root/a";
    assert Paths.Join("root/a", "target.txt") == "root/a/target.txt";
    assert "a" != "target.txt";
    SearchLeaf("root/a", t, "target.txt");
    SearchSubdir("root", ExampleA, "target.txt");
  }

  lemma ExampleBranchB()
    ensures SearchEntries("root", [ExampleB], "target.txt") == []
  {
    var o := Entry("other.txt", ExampleFile, Unreadable);
    ExampleKinds();
    assert Paths.Join("root", "b") == "root/b";
    assert "b" != "target.txt" && "other.txt" != "target.txt";
    SearchLeaf("root/b", o, "target.txt");
    SearchSubdir("root", ExampleB, "target.txt");
  }
}

=== FILE: shell.dfy ===
/** The command loop of `main`: one line in, one reply out, with the current path and
    whether the loop still runs as the only state carried between lines. */
module Shell {
  import opened Wrappers
  import opened FsModel
  import opened Paths
  import opened Tokenizer
  import Numerals
  import Permissions
  import Search
  import DirListing

  datatype Status = Running | Exited | Aborted

  /** `currentPath` and whether the loop goes on. `Aborted` is the process ending on the
      uncaught exception `stoi` throws for a bad `chmod` mode. */
  datatype Session = Session(currentPath: string, status: Status)

  /** The filesystem as the loop sees it while it handles one line. Each field answers
      one POSIX call on a path (true or Some for success). */
  datatype Fs = Fs(
    openDir: string -> Listing,         // opendir/readdir, with stat of each entry
    chdir: string -> Option<string>,    // chdir, then getcwd on success
    mkdir: (string, nat) -> bool,       // mkdir(path, mode)
    createFile: string -> bool,         // ofstream(path) opens
    remove: string -> bool,             // remove(path)
    rmdir: string -> bool,              // rmdir(path)
    copy: (string, string) -> bool,     // copyFile(src, dest)
    rename: (string, string) -> bool,   // rename(src, dest)
    stat: string -> Option<nat>,        // stat(path), its st_mode
    chmod: (string, nat) -> bool)       // chmod(path, mode)

  /** What the loop prints for one line. */
  datatype Reply =
    | Skipped
    | Rows(rows: seq<DirListing.Row>)
    | ListFailed(path: string)
    | ChangedDir
    | DirNotFound
    | DirCreated | DirCreateFailed
    | FileCreated | FileCreateFailed
    | FileDeleted | FileDeleteFailed
    | DirRemoved | DirRemoveFailed
    | Copied | CopyFailed
    | Moved | MoveFailed
    | Found(paths: seq<string>)
    | Perms(report: Permissions.PermReport)
    | PermsUpdated | PermsFailed
    | HelpShown
    | UnknownCommand
    | Goodbye
    | Terminated(error: Numerals.StoiResult)

  const Commands: set<string> :=
    {"exit", "ls", "cd", "mkdir", "touch", "rm", "rmdir", "cp", "mv", "search", "perm", "chmod", "help"}

  /** Mode bits `mkdir` creates directories with (0755). */
  const DirMode: nat := 0x1ED

  /** `int` to `mode_t`: the conversion keeps the value modulo 2^32. */
  function ToModeT(v: int): (m: nat)
    ensures m < 0x1_0000_0000
    ensures 0 <= v < 0x1_0000_0000 ==> m == v
    ensures (v - m) % 0x1_0000_0000 == 0
  {
    v % 0x1_0000_0000
  }

  /** `chmod -1 f` hands `chmod` the mode with every bit set. */
  lemma MinusOneModeT()
    ensures ToModeT(-1) == 0xFFFF_FFFF
  {
  }

  /** One pass of the loop body for a non-empty line. */
  function Dispatch(s: Session, t: Tokens, fs: Fs): (Session, Reply)
  {
    var p := s.currentPath;
    if t.cmd == "exit" then (s.(status := Exited), Goodbye)
    else if t.cmd == "ls" then
      (s, match DirListing.ListDirectory(fs.openDir(p))
          case None => ListFailed(p)
          case Some(rows) => Rows(rows))
    else if t.cmd == "cd" then
      match fs.chdir(CdTarget(p, t.arg1))
      case Some(cwd) => (s.(currentPath := cwd), ChangedDir)
      case None => (s, DirNotFound)
    else if t.cmd == "mkdir" then
      (s, if fs.mkdir(Join(p, t.arg1), DirMode) then DirCreated else DirCreateFailed)
    else if t.cmd == "touch" then
      (s, if fs.createFile(Join(p, t.arg1)) then FileCreated else FileCreateFailed)
    else if t.cmd == "rm" then
      (s, if fs.remove(Join(p, t.arg1)) then FileDeleted else FileDeleteFailed)
    else if t.cmd == "rmdir" then
      (s, if fs.rmdir(Join(p, t.arg1)) then DirRemoved else DirRemoveFailed)
    else if t.cmd == "cp" then
      (s, if fs.copy(Join(p, t.arg1), Join(p, t.arg2)) then Copied else CopyFailed)
    else if t.cmd == "mv" then
      (s, if fs.rename(Join(p, t.arg1), Join(p, t.arg2)) then Moved else MoveFailed)
    else if t.cmd == "search" then
      (s, Found(Search.SearchItem(p, fs.openDir(p), t.arg1)))
    else if t.cmd == "perm" then
      var target := Join(p, t.arg1);
      (s, Perms(Permissions.ShowPermissions(target, fs.stat(target))))
    else if t.cmd == "chmod" then
      match Numerals.StoiOctal(t.arg1)
      case Converted(v) =>
        (s, if fs.chmod(Join(p, t.arg2), ToModeT(v)) then PermsUpdated else PermsFailed)
      case _ => (s.(status := Aborted), Terminated(Numerals.StoiOctal(t.arg1)))
    else if t.cmd == "help" then (s, HelpShown)
    else (s, UnknownCommand)
  }

  /** One iteration of `while (true)`: an empty line is skipped, anything else is split
      into three words and dispatched on the first. */
  function Step(s: Session, line: string, fs: Fs): (r: (Session, Reply))
    requires s.status == Running
    ensures line == "" ==> r == (s, Skipped)
    ensures var t := Tokenize(line);
            r.0.currentPath != s.currentPath ==>
              line != "" && t.cmd == "cd" && fs.chdir(CdTarget(s.currentPath, t.arg1)) == Some(r.0.currentPath)
    ensures r.0.status == Exited <==> line != "" && Tokenize(line).cmd == "exit"
    ensures r.0.status == Aborted <==>
              line != "" && Tokenize(line).cmd == "chmod" && !Numerals.StoiOctal(Tokenize(line).arg1).Converted?
    ensures line != "" && Tokenize(line).cmd !in Commands ==> r == (s, UnknownCommand)
  {
    if line == "" then (s, Skipped) else Dispatch(s, Tokenize(line), fs)
  }

  /** Lines stop the loop only through `exit` or a `chmod` whose mode `stoi` rejects. */
  predicate Stops(line: string) {
    line != "" &&
    (Tokenize(line).cmd == "exit" ||
     (Tokenize(line).cmd == "chmod" && !Numerals.StoiOctal(Tokenize(line).arg1).Converted?))
  }

  /** The loop over a sequence of input lines, the i-th line handled against the i-th
      filesystem state; it ends at the first line that stops it or when input runs out. */
  function Run(s: Session, lines: seq<string>, worlds: seq<Fs>): (r: (Session, seq<Reply>))
    requires |worlds| == |lines|
    ensures |r.1| <= |lines|
    ensures s.status != Running ==> r == (s, [])
    decreases |lines|
  {
    if s.status != Running || lines == [] then (s, [])
    else
      var (next, reply) := Step(s, lines[0], worlds[0]);
      var (final, replies) := Run(next, lines[1..], worlds[1..]);
      (final, [reply] + replies)
  }

  /** A line of white space only is not skipped: it is an unknown command, and changes
      nothing. */
  lemma BlankLineIsUnknown(s: Session, line: string, fs: Fs)
    requires s.status == Running && line != ""
    requires forall i :: 0 <= i < |line| ==> Numerals.IsSpace(line[i])
    ensures Step(s, line, fs) == (s, UnknownCommand)
  {
    BlankLineHasNoWords(line);
  }

  /** Without `exit` and without a rejected `chmod` mode the loop reads every line, gives
      one reply per line and is still running at the end. */
  lemma {:induction false} RunWithoutStopKeepsRunning(s: Session, lines: seq<string>, worlds: seq<Fs>)
    requires |worlds| == |lines| && s.status == Running
    requires forall i :: 0 <= i < |lines| ==> !Stops(lines[i])
    ensures Run(s, lines, worlds).0.status == Running
    ensures |Run(s, lines, worlds).1| == |lines|
    decreases |lines|
  {
    if lines != [] {
      var next := Step(s, lines[0], worlds[0]).0;
      assert !Stops(lines[0]);
      RunWithoutStopKeepsRunning(next, lines[1..], worlds[1..]);
    }
  }

  /** `exit` ends the loop at once: later lines are never read. */
  lemma ExitEndsTheLoop(s: Session, lines: seq<string>, worlds: seq<Fs>)
    requires |worlds| == |lines| && s.status == Running
    requires |lines| > 0 && lines[0] != "" && Tokenize(lines[0]).cmd == "exit"
    ensures Run(s, lines, worlds) == (s.(status := Exited), [Goodbye])
  {
    StepOnExit(s, lines[0], worlds[0]);
    var st := Step(s, lines[0], worlds[0]);
    var rest := Run(st.0, lines[1..], worlds[1..]);
    assert rest == (st.0, []);
    assert Run(s, lines, worlds) == (rest.0, [st.1] + rest.1);
    assert [st.1] + rest.1 == [Goodbye];
  }

  lemma StepOnExit(s: Session, line: string, fs: Fs)
    requires s.status == Running && line != "" && Tokenize(line).cmd == "exit"
    ensures Step(s, line, fs) == (s.(status := Exited), Goodbye)
  {
  }

  /** Whatever the input, the final path is the starting one or one that `chdir`/`getcwd`
      reported for some `cd` line. */
  lemma {:induction false} PathOnlyFromCd(s: Session, lines: seq<string>, worlds: seq<Fs>)
    requires |worlds| == |lines|
    ensures var f := Run(s, lines, worlds).0.currentPath;
            f == s.currentPath ||
            exists i, q :: 0 <= i < |lines| && Tokenize(lines[i]).cmd == "cd" && worlds[i].chdir(q) == Some(f)
    decreases |lines|
  {
    if s.status == Running && lines != [] {
      var next := Step(s, lines[0], worlds[0]).0;
      PathOnlyFromCd(next, lines[1..], worlds[1..]);
      var f := Run(s, lines, worlds).0.currentPath;
      assert f == Run(next, lines[1..], worlds[1..]).0.currentPath;
      if f != s.currentPath {
        if f == next.currentPath {
          var t := Tokenize(lines[0]);
          assert worlds[0].chdir(CdTarget(s.currentPath, t.arg1)) == Some(f);
        } else {
          var i, q :| 0 <= i < |lines[1..]| && Tokenize(lines[1..][i]).cmd == "cd" && worlds[1..][i].chdir(q) == Some(f);
          assert lines[1..][i] == lines[i + 1] && worlds[1..][i] == worlds[i + 1];
        }
      }
    }
  }

  /** Two consecutive lines from a running state that the first line does not stop. */
  lemma RunTwo(s: Session, l1: string, l2: string, w1: Fs, w2: Fs)
    requires s.status == Running && Step(s, l1, w1).0.status == Running
    ensures Run(s, [l1, l2], [w1, w2]).0 == Step(Step(s, l1, w1).0, l2, w2).0
    ensures Run(s, [l1, l2], [w1, w2]).1 == [Step(s, l1, w1).1, Step(Step(s, l1, w1).0, l2, w2).1]
  {
    var st1 := Step(s, l1, w1);
    var st2 := Step(st1.0, l2, w2);
    assert [l1, l2][1..] == [l2] && [w1, w2][1..] == [w2];
    assert [l2][1..] == [] && [w2][1..] == [];
    var last := Run(st2.0, [], []);
    assert last == (st2.0, []);
    var tail := Run(st1.0, [l2], [w2]);
    assert tail == (last.0, [st2.1] + last.1);
    assert tail.1 == [st2.1];
    var all := Run(s, [l1, l2], [w1, w2]);
    assert all == (tail.0, [st1.1] + tail.1);
    assert [st1.1] + tail.1 == [st1.1, st2.1];
  }

  /** `mkdir x`, `cd x`, `cd ..` comes back to the starting path, when `getcwd` reports
      the paths the shell built (no symbolic links on the way). */
  lemma CdIntoThenBack(p: string, x: string, w0: Fs, w1: Fs, w2: Fs)
    requires IsWord(x) && '/' !in x && x != ".."
    requires w1.chdir(Join(p, x)) == Some(Join(p, x))
    requires w2.chdir(p) == Some(p)
    ensures var r := Run(Session(p, Running), ["mkdir " + x, "cd " + x, "cd .."], [w0, w1, w2]);
            r.0 == Session(p, Running) && |r.1| == 3
  {
    var s0 := Session(p, Running);
    var l0, l1, l2 := "mkdir " + x, "cd " + x, "cd ..";
    CommandLine("mkdir", x, l0);
    CommandLine("cd", x, l1);
    CommandLine("cd", "..", l2);
    ParentOfJoin(p, x);
    StepKeepsPath(s0, l0, w0, Tokens("mkdir", x, ""));
    StepCd(s0, l1, w1, x, Join(p, x));
    StepCd(Session(Join(p, x), Running), l2, w2, "..", p);
    RunTwo(s0, l1, l2, w1, w2);
    RunThree(s0, l0, l1, l2, w0, w1, w2);
  }

  /** Three lines: the first iteration, then the other two from the state it leaves. */
  lemma RunThree(s: Session, l0: string, l1: string, l2: string, w0: Fs, w1: Fs, w2: Fs)
    requires s.status == Running
    ensures var st := Step(s, l0, w0);
            var rest := Run(st.0, [l1, l2], [w1, w2]);
            Run(s, [l0, l1, l2], [w0, w1, w2]) == (rest.0, [st.1] + rest.1)
  {
    RunCons(s, l0, [l1, l2], w0, [w1, w2]);
    assert [l0] + [l1, l2] == [l0, l1, l2];
    assert [w0] + [w1, w2] == [w0, w1, w2];
  }

  /** The loop's first iteration, then the rest of the input from the state it leaves. */
  lemma RunCons(s: Session, l: string, ls: seq<string>, w: Fs, ws: seq<Fs>)
    requires s.status == Running && |ws| == |ls|
    ensures var st := Step(s, l, w);
            Run(s, [l] + ls, [w] + ws) == (Run(st.0, ls, ws).0, [st.1] + Run(st.0, ls, ws).1)
  {
    assert ([l] + ls)[0] == l && ([l] + ls)[1..] == ls;
    assert ([w] + ws)[0] == w && ([w] + ws)[1..] == ws;
  }

  /** A `cd` whose `chdir` succeeds moves to the path `getcwd` reports. */
  lemma StepCd(s: Session, line: string, fs: Fs, arg: string, cwd: string)
    requires s.status == Running && line != "" && Tokenize(line) == Tokens("cd", arg, "")
    requires fs.chdir(CdTarget(s.currentPath, arg)) == Some(cwd)
    ensures Step(s, line, fs) == (s.(currentPath := cwd), ChangedDir)
  {
  }

  /** Every command but `cd`, `exit` and `chmod` leaves the session as it was. */
  lemma StepKeepsPath(s: Session, line: string, fs: Fs, t: Tokens)
    requires s.status == Running && line != "" && Tokenize(line) == t
    requires t.cmd !in {"cd", "exit", "chmod"}
    ensures Step(s, line, fs).0 == s
  {
  }

  /** `mkdir`, `touch`, `rm` and `rmdir` act on `currentPath + "/" + arg1`, a child of the
      current path when the argument holds no '/': each succeeds exactly when its call does,
      and the session is kept. */
  lemma StepOnChild(s: Session, line: string, fs: Fs)
    requires s.status == Running && line != ""
    ensures var t := Tokenize(line);
            var target := Join(s.currentPath, t.arg1);
            var r := Step(s, line, fs);
            t.cmd in {"mkdir", "touch", "rm", "rmdir"} ==>
              r.0 == s &&
              (t.cmd == "mkdir" ==> (r.1 == DirCreated <==> fs.mkdir(target, DirMode)) &&
                                    (r.1 == DirCreateFailed <==> !fs.mkdir(target, DirMode))) &&
              (t.cmd == "touch" ==> (r.1 == FileCreated <==> fs.createFile(target)) &&
                                    (r.1 == FileCreateFailed <==> !fs.createFile(target))) &&
              (t.cmd == "rm" ==> (r.1 == FileDeleted <==> fs.remove(target)) &&
                                 (r.1 == FileDeleteFailed <==> !fs.remove(target))) &&
              (t.cmd == "rmdir" ==> (r.1 == DirRemoved <==> fs.rmdir(target)) &&
                                    (r.1 == DirRemoveFailed <==> !fs.rmdir(target)))
    ensures var t := Tokenize(line);
            '/' !in t.arg1 ==> ParentPath(Join(s.currentPath, t.arg1)) == s.currentPath
  {
    var t := Tokenize(line);
    if '/' !in t.arg1 {
      ParentOfJoin(s.currentPath, t.arg1);
    }
  }

  /** `cp` and `mv` hand `copyFile` and `rename` the two joined paths, source first. */
  lemma StepOnPair(s: Session, line: string, fs: Fs)
    requires s.status == Running && line != ""
    ensures var t := Tokenize(line);
            var src, dest := Join(s.currentPath, t.arg1), Join(s.currentPath, t.arg2);
            var r := Step(s, line, fs);
            t.cmd in {"cp", "mv"} ==>
              r.0 == s &&
              (t.cmd == "cp" ==> (r.1 == Copied <==> fs.copy(src, dest)) &&
                                 (r.1 == CopyFailed <==> !fs.copy(src, dest))) &&
              (t.cmd == "mv" ==> (r.1 == Moved <==> fs.rename(src, dest)) &&
                                 (r.1 == MoveFailed <==> !fs.rename(src, dest)))
    ensures var t := Tokenize(line);
            '/' !in t.arg2 ==> ParentPath(Join(s.currentPath, t.arg2)) == s.currentPath
  {
    var t := Tokenize(line);
    if '/' !in t.arg2 {
      ParentOfJoin(s.currentPath, t.arg2);
    }
  }

  /** `perm` stats `currentPath + "/" + arg1`: it cannot access that path exactly when
      `stat` fails, and otherwise shows a text that reads back as the nine mode bits. */
  lemma StepOnPerm(s: Session, line: string, fs: Fs)
    requires s.status == Running && line != "" && Tokenize(line).cmd == "perm"
    ensures var target := Join(s.currentPath, Tokenize(line).arg1);
            var r := Step(s, line, fs);
            r.0 == s && r.1.Perms? &&
            (r.1.report.CannotAccess? <==> fs.stat(target).None?) &&
            (r.1.report.CannotAccess? ==> r.1.report.path == target) &&
            (r.1.report.Shown? ==> Permissions.ParsePermString(r.1.report.text) == fs.stat(target).value % 512)
  {
  }

  /** `chmod` with a mode `stoi` accepts sets that mode, taken to `mode_t`, on
      `currentPath + "/" + arg2`, and succeeds exactly when that call does. */
  lemma StepOnChmod(s: Session, line: string, fs: Fs)
    requires s.status == Running && line != "" && Tokenize(line).cmd == "chmod"
    ensures var t := Tokenize(line);
            var target := Join(s.currentPath, t.arg2);
            var r := Step(s, line, fs);
            var v := Numerals.StoiOctal(t.arg1);
            v.Converted? ==>
              r.0 == s &&
              (r.1 == PermsUpdated <==> fs.chmod(target, ToModeT(v.value))) &&
              (r.1 == PermsFailed <==> !fs.chmod(target, ToModeT(v.value)))
  {
  }

  /** `ls` lists the current directory: it fails exactly when the directory cannot be
      opened, and otherwise prints the rows of what `opendir` enumerates there. */
  lemma StepOnList(s: Session, line: string, fs: Fs)
    requires s.status == Running && line != "" && Tokenize(line).cmd == "ls"
    ensures var p := s.currentPath;
            var r := Step(s, line, fs);
            r.0 == s &&
            (r.1 == ListFailed(p) <==> fs.openDir(p).Unreadable?) &&
            (fs.openDir(p).Listed? ==> r.1 == Rows(DirListing.ListRows(fs.openDir(p).entries)))
  {
  }

  /** `search` walks the current directory for the first argument and reports every path
      `searchItem` finds there. */
  lemma StepOnSearch(s: Session, line: string, fs: Fs)
    requires s.status == Running && line != "" && Tokenize(line).cmd == "search"
    ensures var p := s.currentPath;
            Step(s, line, fs) == (s, Found(Search.SearchItem(p, fs.openDir(p), Tokenize(line).arg1)))
  {
  }

  /** `cd` asks `chdir` for `CdTarget`: on success the session moves to the path `getcwd`
      reports, on failure it stays where it was and the reply says the directory was not
      found. */
  lemma StepOnCd(s: Session, line: string, fs: Fs)
    requires s.status == Running && line != "" && Tokenize(line).cmd == "cd"
    ensures var target := CdTarget(s.currentPath, Tokenize(line).arg1);
            var r := Step(s, line, fs);
            (r.1 == ChangedDir <==> fs.chdir(target).Some?) &&
            (r.1 == DirNotFound <==> fs.chdir(target).None?) &&
            (fs.chdir(target).Some? ==> r.0 == s.(currentPath := fs.chdir(target).value)) &&
            (fs.chdir(target).None? ==> r.0 == s)
  {
  }

  /** `help` prints the command list and changes nothing. */
  lemma StepOnHelp(s: Session, line: string, fs: Fs)
    requires s.status == Running && line != "" && Tokenize(line).cmd == "help"
    ensures Step(s, line, fs) == (s, HelpShown)
  {
  }

  /** A line holding a command and one argument separated by a space. */
  lemma CommandLine(cmd: string, x: string, line: string)
    requires IsWord(cmd) && IsWord(x) && line == cmd + " " + x
    ensures line != "" && Tokenize(line) == Tokens(cmd, x, "")
  {
    TwoWords(cmd, x);
  }

  /** A command and one argument, separated by a space, tokenize as such. */
  lemma TwoWords(a: string, b: string)
    requires IsWord(a) && IsWord(b)
    ensures a + " " + b != ""
    ensures Tokenize(a + " " + b) == Tokens(a, b, "")
  {
    assert Unwords([a, b]) == a + " " + b by {
      assert [a, b][1..] == [b];
    }
    WordsOfUnwords([a, b]);
  }

  /** `chmod 644 f` then `perm f` shows rw-r--r--, when the second `stat` sees the mode
      the first call set (whatever the file-type bits above it). */
  lemma ChmodThenPerm(p: string, w0: Fs, w1: Fs, mode: nat)
    requires w0.chmod(Join(p, "f"), 0x1A4)
    requires w1.stat(Join(p, "f")) == Some(mode) && mode % 512 == 0x1A4
    ensures Run(Session(p, Running), ["chmod 644 f", "perm f"], [w0, w1]) ==
            (Session(p, Running), [PermsUpdated, Perms(Permissions.Shown("rw-r--r--"))])
  {
    var s0 := Session(p, Running);
    ChmodLine();
    StepChmod(s0, "chmod 644 f", w0);
    PermOfChmodded(mode);
    StepPerm(s0, w1, mode);
    RunTwo(s0, "chmod 644 f", "perm f", w0, w1);
  }

  lemma StepChmod(s: Session, line: string, fs: Fs)
    requires s.status == Running && line != "" && Tokenize(line) == Tokens("chmod", "644", "f")
    requires Numerals.StoiOctal("644") == Numerals.Converted(0x1A4)
    requires fs.chmod(Join(s.currentPath, "f"), 0x1A4)
    ensures Step(s, line, fs) == (s, PermsUpdated)
  {
    assert ToModeT(0x1A4) == 0x1A4;
    StepOnChmod(s, line, fs);
  }

  lemma StepPerm(s: Session, fs: Fs, mode: nat)
    requires s.status == Running
    requires fs.stat(Join(s.currentPath, "f")) == Some(mode)
    requires Permissions.PermString(mode) == "rw-r--r--"
    ensures Step(s, "perm f", fs) == (s, Perms(Permissions.Shown("rw-r--r--")))
  {
    CommandLine("perm", "f", "perm f");
  }

  lemma ChmodLine()
    ensures Tokenize("chmod 644 f") == Tokens("chmod", "644", "f")
    ensures Numerals.StoiOctal("644") == Numerals.Converted(0x1A4)
  {
    assert Unwords(["chmod", "644", "f"]) == "chmod 644 f" by {
      assert ["chmod", "644", "f"][1..] == ["644", "f"];
      assert ["644", "f"][1..] == ["f"];
    }
    WordsOfUnwords(["chmod", "644", "f"]);
    OctalSixFourFour();
  }

  lemma OctalSixFourFour()
    ensures Numerals.StoiOctal("644") == Numerals.Converted(0x1A4)
  {
    assert Numerals.NatToOctal(52) == Numerals.NatToOctal(6) + ['4'];
    assert Numerals.NatToOctal(0x1A4) == "644";
    Numerals.StoiOctalRoundTrip(0x1A4);
  }

  lemma PermOfChmodded(mode: nat)
    requires mode % 512 == 0x1A4
    ensures Permissions.PermString(mode) == "rw-r--r--"
  {
    Permissions.HighBitsIgnored(mode);
    Permissions.PermStringExamples();
  }
}

=== FILE: size_format.dfy ===
/** `formatSize`: a byte count becomes "<n> B" or a value scaled to KB, MB, GB or TB. */
module SizeFormat {
  import Numerals

  /** The width of `long long`. */
  type Int64 = x: int | -0x8000_0000_0000_0000 <= x < 0x8000_0000_0000_0000

  const Units: seq<string> := ["B", "KB", "MB", "GB", "TB"]

  /** The largest unit index; the loop never escalates past TB. */
  const MaxUnit: nat := 4

  function Pow1024(k: nat): (p: nat)
    ensures p >= 1
  {
    if k == 0 then 1 else 1024 * Pow1024(k - 1)
  }

  /** Largest k with 1024^k <= n, for n >= 1 (and 0 for n < 1024). */
  function Log1024(n: int): (k: nat)
    ensures n >= 1 ==> Pow1024(k) <= n < Pow1024(k + 1)
    ensures n < 1024 ==> k == 0
    decreases if n < 0 then 0 else n
  {
    if n < 1024 then 0 else 1 + Log1024(n / 1024)
  }

  /** The unit `formatSize` selects: min(4, k) with k the largest power of 1024 not above the size. */
  function UnitIndex(sizeBytes: int): (u: nat)
    ensures u <= MaxUnit
    ensures sizeBytes >= 1 ==> Pow1024(u) <= sizeBytes
    ensures u < MaxUnit ==> sizeBytes < Pow1024(u + 1)
    ensures u == 0 <==> sizeBytes < 1024
  {
    var k := Log1024(sizeBytes);
    if k < MaxUnit then k
    else
      PowMonotone(MaxUnit, k);
      MaxUnit
  }

  /** The value the loop holds after `u` divisions by 1024. */
  function Scale(sizeBytes: int, u: nat): real {
    sizeBytes as real / Pow1024(u) as real
  }

  /** The unit loop of `formatSize`, run on the `double` value of the size. Dividing a
      double by 1024 is exact, so the loop is run here on exact reals. */
  method SelectUnit(sizeBytes: Int64) returns (unitIndex: nat, size: real)
    ensures unitIndex == UnitIndex(sizeBytes)
    ensures size == Scale(sizeBytes, unitIndex)
  {
    unitIndex := 0;
    size := sizeBytes as real;
    while size >= 1024.0 && unitIndex < MaxUnit
      invariant unitIndex <= MaxUnit
      invariant size == Scale(sizeBytes, unitIndex)
      invariant unitIndex > 0 ==> 1024 * Pow1024(unitIndex - 1) <= sizeBytes
    {
      ScaleCompare(sizeBytes, unitIndex, 1024);
      ScaleNext(sizeBytes, unitIndex);
      size := size / 1024.0;
      unitIndex := unitIndex + 1;
    }
    ScaleCompare(sizeBytes, unitIndex, 1024);
    UnitIndexUnique(sizeBytes, unitIndex);
  }

  /** `value`, shown in unit u, stands for exactly `sizeBytes` bytes. */
  predicate ScalesBackTo(value: real, u: nat, sizeBytes: int) {
    value * Pow1024(u) as real == sizeBytes as real
  }

  /** Multiplying the scaled value back by 1024^u gives the size. */
  lemma ScaleTimesPower(s: int, u: nat)
    ensures Scale(s, u) * Pow1024(u) as real == s as real
  {
    var p := Pow1024(u) as real;
    assert p > 0.0;
    assert (s as real / p) * p == s as real;
  }

  lemma ScaleNext(s: int, u: nat)
    ensures Scale(s, u + 1) == Scale(s, u) / 1024.0
  {
    var p := Pow1024(u) as real;
    assert Pow1024(u + 1) as real == 1024.0 * p;
    assert s as real / (1024.0 * p) == (s as real / p) / 1024.0;
  }

  /** The scaled value reaches `c` exactly when the size reaches c * 1024^u. */
  lemma ScaleCompare(s: int, u: nat, c: nat)
    ensures Scale(s, u) >= c as real <==> s >= c * Pow1024(u)
  {
    QuotientCompare(s as real, Pow1024(u) as real, c as real);
  }

  lemma QuotientCompare(s: real, p: real, c: real)
    requires p > 0.0
    ensures s / p >= c <==> s >= c * p
  {
    var q := s / p;
    assert q * p == s;
    if q >= c {
      MulMono(q, p, c);
    } else {
      MulMonoStrict(q, p, c);
    }
  }

  lemma MulMono(q: real, p: real, c: real)
    requires p > 0.0 && q >= c
    ensures q * p >= c * p
  {
  }

  lemma MulMonoStrict(q: real, p: real, c: real)
    requires p > 0.0 && q < c
    ensures q * p < c * p
  {
  }

  /** The loop's exit state pins down the unit: any index meeting the bracket is the one. */
  lemma UnitIndexUnique(sizeBytes: int, u: nat)
    requires u <= MaxUnit
    requires u > 0 ==> 1024 * Pow1024(u - 1) <= sizeBytes
    requires u < MaxUnit ==> sizeBytes < 1024 * Pow1024(u)
    ensures u == UnitIndex(sizeBytes)
  {
    var v := UnitIndex(sizeBytes);
    if u < v {
      PowMonotone(u + 1, v);
    } else if v < u {
      PowMonotone(v + 1, u);
    }
  }

  lemma {:induction false} PowMonotone(a: nat, b: nat)
    requires a <= b
    ensures Pow1024(a) <= Pow1024(b)
    decreases b - a
  {
    if a < b {
      PowMonotone(a, b - 1);
    }
  }

  /** A bigger file never gets a smaller unit. */
  lemma UnitIndexMonotone(a: int, b: int)
    requires a <= b
    ensures UnitIndex(a) <= UnitIndex(b)
  {
    var u, v := UnitIndex(a), UnitIndex(b);
    if v < u {
      PowMonotone(v + 1, u);
    }
  }

  /** The text `formatSize` produces. The two-decimal fixed rendering of a scaled value is
      not modelled; `Scaled` carries the exact value and the unit name. */
  datatype SizeText = Bytes(text: string) | Scaled(value: real, unitName: string)

  function FormatSize(sizeBytes: Int64): (r: SizeText)
    ensures r.Bytes? <==> sizeBytes < 1024
    ensures r.Scaled? ==> r.unitName in Units[1..]
    ensures r.Scaled? ==> 1.0 <= r.value
    ensures r.Scaled? && r.unitName != "TB" ==> r.value < 1024.0
    ensures r.Scaled? ==> r.unitName == Units[UnitIndex(sizeBytes)] &&
                          ScalesBackTo(r.value, UnitIndex(sizeBytes), sizeBytes)
  {
    var u := UnitIndex(sizeBytes);
    if u > 0 then
      ScaledBranch(sizeBytes, u);
      UnitName(u);
      Scaled(Scale(sizeBytes, u), Units[u])
    else
      Bytes(Numerals.IntToDecimal(sizeBytes) + " " + Units[0])
  }

  /** Only the last unit is named "TB", and every unit but the first is a scaled one. */
  lemma UnitName(u: nat)
    requires 1 <= u <= MaxUnit
    ensures Units[u] in Units[1..]
    ensures Units[u] == "TB" <==> u == MaxUnit
  {
    assert Units[1..][u - 1] == Units[u];
  }

  /** What the loop leaves for a size of at least 1024: a value in [1, 1024) (unbounded
      above only at TB) that gives the size back when multiplied by 1024^u. */
  lemma ScaledBranch(sizeBytes: int, u: nat)
    requires 1 <= u == UnitIndex(sizeBytes)
    ensures 1.0 <= Scale(sizeBytes, u)
    ensures u < MaxUnit ==> Scale(sizeBytes, u) < 1024.0
    ensures ScalesBackTo(Scale(sizeBytes, u), u, sizeBytes)
  {
    var p := Pow1024(u);
    assert 1.0 <= Scale(sizeBytes, u) by {
      assert p <= sizeBytes && 1 * p == p;
      ScaleCompare(sizeBytes, u, 1);
    }
    assert u < MaxUnit ==> Scale(sizeBytes, u) < 1024.0 by {
      if u < MaxUnit {
        assert sizeBytes < Pow1024(u + 1) == 1024 * p;
        ScaleCompare(sizeBytes, u, 1024);
      }
    }
    ScaleTimesPower(sizeBytes, u);
  }

  /** Below 1024 no division happens: the plain integer followed by " B". */
  lemma SmallSizesPrintExactly(n: Int64)
    requires 0 <= n < 1024
    ensures FormatSize(n) == Bytes(Numerals.NatToDecimal(n) + " B")
  {
  }

  /** The integer branch loses nothing: distinct small sizes print differently and the
      digits read back as the size. */
  lemma SmallSizeTextDeterminesSize(a: Int64, b: Int64)
    requires a < 1024 && b < 1024
    requires FormatSize(a) == FormatSize(b)
    ensures a == b
  {
    var ta, tb := Numerals.IntToDecimal(a), Numerals.IntToDecimal(b);
    assert FormatSize(a).text == ta + " B";
    assert ta == FormatSize(a).text[..|FormatSize(a).text| - 2];
    assert tb == FormatSize(b).text[..|FormatSize(b).text| - 2];
    Numerals.IntToDecimalInjective(a, b);
  }

  /** Worked values: the integer branch at 0 and 1023, the first KB and MB sizes, and the
      largest `long long`. */
  lemma FormatSizeExamples()
    ensures FormatSize(0) == Bytes("0 B")
    ensures FormatSize(1023) == Bytes("1023 B")
    ensures FormatSize(1024) == Scaled(1.0, "KB")
    ensures FormatSize(1048576) == Scaled(1.0, "MB")
    ensures FormatSize(0x7FFF_FFFF_FFFF_FFFF).unitName == "TB"
  {
    ExampleBytes();
    ExampleKilobyte();
    ExampleMegabyte();
    ExampleLargest();
  }

  lemma ExampleBytes()
    ensures FormatSize(0) == Bytes("0 B")
    ensures FormatSize(1023) == Bytes("1023 B")
  {
    assert Numerals.NatToDecimal(1023) == Numerals.NatToDecimal(102) + ['3'];
    assert Numerals.NatToDecimal(102) == Numerals.NatToDecimal(10) + ['2'];
    assert Numerals.NatToDecimal(10) == Numerals.NatToDecimal(1) + ['0'];
  }

  lemma ExampleKilobyte()
    ensures FormatSize(1024) == Scaled(1.0, "KB")
  {
    assert Log1024(1024) == 1;
    assert Scale(1024, 1) == 1.0;
  }

  lemma ExampleMegabyte()
    ensures FormatSize(1048576) == Scaled(1.0, "MB")
  {
    assert Log1024(1048576) == 2;
    assert Pow1024(2) == 1048576;
    assert Scale(1048576, 2) == 1.0;
  }

  lemma ExampleLargest()
    ensures FormatSize(0x7FFF_FFFF_FFFF_FFFF).unitName == "TB"
  {
    assert Log1024(0x7FFF_FFFF_FFFF_FFFF) == 6 by {
      assert Log1024(0x7FFF_FFFF_FFFF_FFFF / 1024 / 1024 / 1024 / 1024 / 1024) == 1;
    }
  }
}

=== FILE: tokenizer.dfy ===
/** `stringstream(input) >> cmd >> arg1 >> arg2`: the first three white-space separated
    words of a line, missing ones left empty. */
module Tokenizer {
  import opened Numerals

  predicate NoSpace(w: string) {
    forall i :: 0 <= i < |w| ==> !IsSpace(w[i])
  }

  /** A word as `>>` reads it: non-empty, no white space. */
  predicate IsWord(w: string) {
    |w| > 0 && NoSpace(w)
  }

  /** Length of the leading run of non-space characters. */
  function WordLength(s: string): (n: nat)
    ensures n <= |s|
    ensures NoSpace(s[..n])
    ensures n < |s| ==> IsSpace(s[n])
    decreases |s|
  {
    if |s| == 0 || IsSpace(s[0]) then 0
    else
      var n := 1 + WordLength(s[1..]);
      assert s[..n] == [s[0]] + s[1..][..n - 1];
      n
  }

  /** Every white-space separated word of the line, left to right. */
  function Words(s: string): (ws: seq<string>)
    ensures forall k :: 0 <= k < |ws| ==> IsWord(ws[k])
    decreases |s|
  {
    if |s| == 0 then []
    else if IsSpace(s[0]) then Words(s[1..])
    else
      var n := WordLength(s);
      [s[..n]] + Words(s[n..])
  }

  /** The k-th word, or "" when the line has fewer (the stream leaves the string empty). */
  function WordOr(ws: seq<string>, k: nat): string {
    if k < |ws| then ws[k] else ""
  }

  datatype Tokens = Tokens(cmd: string, arg1: string, arg2: string)

  function Tokenize(line: string): (t: Tokens)
    ensures t.cmd == "" ==> t.arg1 == "" && t.arg2 == ""
    ensures t.arg1 == "" ==> t.arg2 == ""
    ensures t.cmd == "" <==> Words(line) == []
  {
    var ws := Words(line);
    Tokens(WordOr(ws, 0), WordOr(ws, 1), WordOr(ws, 2))
  }

  /** The extraction as the stream runs it: skip white space, read a word, three times;
      stops early at the end of the line. */
  method ReadTokens(line: string) returns (t: Tokens)
    ensures t == Tokenize(line)
  {
    var words: seq<string> := [];
    var i := 0;
    while i < |line| && |words| < 3
      invariant i <= |line|
      invariant |words| <= 3
      invariant words + Words(line[i..]) == Words(line)
      decreases |line| - i
    {
      if IsSpace(line[i]) {
        SkipSpace(line, i);
        i := i + 1;
      } else {
        var j := WordEnd(line, i);
        TakeWord(line, i, j);
        AppendWord(words, line[i..j], Words(line[j..]));
        words := words + [line[i..j]];
        i := j;
      }
    }
    if |words| < 3 {
      assert line[i..] == [];
    }
    FirstThree(words, Words(line[i..]), Words(line));
    t := Tokens(WordOr(words, 0), WordOr(words, 1), WordOr(words, 2));
  }

  /** One `>>` read: from a non-space character, the index just past the word. */
  method WordEnd(line: string, i: nat) returns (j: nat)
    requires i < |line| && !IsSpace(line[i])
    ensures i < j <= |line|
    ensures forall k :: i <= k < j ==> !IsSpace(line[k])
    ensures j < |line| ==> IsSpace(line[j])
  {
    j := i + 1;
    while j < |line| && !IsSpace(line[j])
      invariant i < j <= |line|
      invariant forall k :: i <= k < j ==> !IsSpace(line[k])
      decreases |line| - j
    {
      j := j + 1;
    }
  }

  lemma AppendWord(words: seq<string>, w: string, rest: seq<string>)
    ensures words + [w] + rest == words + ([w] + rest)
  {
  }

  lemma SkipSpace(line: string, i: nat)
    requires i < |line| && IsSpace(line[i])
    ensures Words(line[i..]) == Words(line[i + 1..])
  {
    assert line[i..][1..] == line[i + 1..];
  }

  lemma TakeWord(line: string, i: nat, j: nat)
    requires i < j <= |line|
    requires forall k :: i <= k < j ==> !IsSpace(line[k])
    requires j < |line| ==> IsSpace(line[j])
    ensures Words(line[i..]) == [line[i..j]] + Words(line[j..])
  {
    var s := line[i..];
    WordLengthIs(s, j - i);
    assert s[..j - i] == line[i..j];
    assert s[j - i..] == line[j..];
  }

  /** The first three words are already read once three are in hand or the line is used up. */
  lemma FirstThree(words: seq<string>, rest: seq<string>, all: seq<string>)
    requires words + rest == all
    requires |words| == 3 || rest == []
    ensures forall k :: 0 <= k < 3 ==> WordOr(words, k) == WordOr(all, k)
  {
  }

  /** A run of n non-space characters followed by a space or the end has word length n. */
  lemma {:induction false} WordLengthIs(s: string, n: nat)
    requires n <= |s|
    requires forall k :: 0 <= k < n ==> !IsSpace(s[k])
    requires n < |s| ==> IsSpace(s[n])
    ensures WordLength(s) == n
    decreases n
  {
    if n > 0 {
      WordLengthIs(s[1..], n - 1);
    }
  }

  /** Words joined by single spaces. */
  function Unwords(ws: seq<string>): string
  {
    if |ws| == 0 then ""
    else if |ws| == 1 then ws[0]
    else ws[0] + " " + Unwords(ws[1..])
  }

  /** Splitting a line built from words gives those words back. */
  lemma {:induction false} WordsOfUnwords(ws: seq<string>)
    requires forall k :: 0 <= k < |ws| ==> IsWord(ws[k])
    ensures Words(Unwords(ws)) == ws
  {
    if |ws| == 0 {
    } else {
      var w := ws[0];
      var s := Unwords(ws);
      var rest := if |ws| == 1 then "" else " " + Unwords(ws[1..]);
      assert s == w + rest;
      WordLengthIs(s, |w|);
      assert s[..|w|] == w;
      assert s[|w|..] == rest;
      if |ws| > 1 {
        assert rest[1..] == Unwords(ws[1..]);
        WordsOfUnwords(ws[1..]);
      }
      assert ws == [w] + ws[1..];
    }
  }

  /** A line of white space only has no word: `cmd` is empty and the line falls through
      to "unknown command". */
  lemma {:induction false} BlankLineHasNoWords(s: string)
    requires forall i :: 0 <= i < |s| ==> IsSpace(s[i])
    ensures Words(s) == []
    ensures Tokenize(s) == Tokens("", "", "")
    decreases |s|
  {
    if |s| > 0 {
      BlankLineHasNoWords(s[1..]);
    }
  }

  /** Leading white space does not change the words. */
  lemma {:induction false} LeadingSpaceIgnored(pad: string, s: string)
    requires forall i :: 0 <= i < |pad| ==> IsSpace(pad[i])
    ensures Words(pad + s) == Words(s)
    decreases |pad|
  {
    if |pad| > 0 {
      var t := pad + s;
      assert IsSpace(pad[0]) && t[0] == pad[0];
      assert t[1..] == pad[1..] + s;
      assert Words(t) == Words(t[1..]);
      LeadingSpaceIgnored(pad[1..], s);
    } else {
      assert pad + s == s;
    }
  }

  /** Words past the third never reach the command: "cp a b c" reads as "cp a b". */
  lemma ExtraWordsIgnored(ws: seq<string>)
    requires |ws| >= 3
    requires forall k :: 0 <= k < |ws| ==> IsWord(ws[k])
    ensures Tokenize(Unwords(ws)) == Tokens(ws[0], ws[1], ws[2])
  {
    WordsOfUnwords(ws);
  }

  /** The words laid end to end. */
  function Flatten(ws: seq<string>): string
  {
    if |ws| == 0 then "" else ws[0] + Flatten(ws[1..])
  }

  /** The line with every white-space character removed. */
  function NonSpace(s: string): string
    decreases |s|
  {
    if |s| == 0 then "" else (if IsSpace(s[0]) then "" else [s[0]]) + NonSpace(s[1..])
  }

  /** Splitting loses no character but white space and adds none. */
  lemma {:induction false} WordsKeepEveryNonSpace(s: string)
    ensures Flatten(Words(s)) == NonSpace(s)
    decreases |s|
  {
    if |s| == 0 {
    } else if IsSpace(s[0]) {
      WordsKeepEveryNonSpace(s[1..]);
    } else {
      var n := WordLength(s);
      var ws := Words(s);
      assert ws == [s[..n]] + Words(s[n..]);
      assert ws[1..] == Words(s[n..]);
      WordsKeepEveryNonSpace(s[n..]);
      NonSpaceOfPrefix(s, n);
    }
  }

  lemma {:induction false} NonSpaceOfPrefix(s: string, n: nat)
    requires n <= |s| && NoSpace(s[..n])
    ensures NonSpace(s) == s[..n] + NonSpace(s[n..])
    decreases n
  {
    if n > 0 {
      assert !IsSpace(s[..n][0]);
      assert s[1..][..n - 1] == s[1..n];
      NonSpaceOfPrefix(s[1..], n - 1);
      assert s[1..][n - 1..] == s[n..];
      assert s[..n] == [s[0]] + s[1..n];
    } else {
      assert s[n..] == s;
    }
  }
}

=== FILE: wrappers.dfy ===
/** The optional value used wherever a call of the program can come back empty:
    `find_last_of` returning npos, `stat` failing, `chdir` failing. */
module Wrappers {

  datatype Option<+T> = None | Some(value: T)
}
